=== FILE: README.md ===
# AccessKit C binding: the value layer, in Dafny

This project models the value layer of AccessKit's C binding
(`bindings/c/src/common.rs` and the header `bindings/c/src/accesskit.h`).
It covers how Rust values become C structs and back:

- node ids as 16 little-endian bytes;
- the `{has_value, value}` optional structs;
- the length/pointer slice structs;
- NUL-terminated strings;
- the `uint8_t` enumerations;
- assembling a `TreeUpdate` from the C `tree_update`;
- the reverse channel that hands action requests to a C callback;
- the ownership lifecycle of the opaque handles C holds.

Nodes and node builders are abstract values: a role, which
`accesskit_node_builder_set_role` replaces, plus the log of the other
property calls made on them. Their storage lives in the `accesskit`
crate, which is not part of this model. Floats are carried as bit
patterns, because the layer only copies them.

Modules, one per file:

| module | file | covers |
|---|---|---|
| `Wrappers` | `wrappers.dfy` | `Option` |
| `LittleEndian` | `little_endian.dfy` | base-256 little-endian digits |
| `FfiValues` | `ffi_values.dfy` | opt structs, slice structs, C strings |
| `Enums` | `enums.dfy` | every header enum with its ordinals |
| `NodeIds` | `node_ids.dfy` | `node_id`, `opt_node_id`, `accesskit_node_id_new` |
| `TextValues` | `text_values.dfy` | text positions, text selections, custom actions, the `node_ids` slice |
| `Nodes` | `nodes.dfy` | the abstract builder and node |
| `TreeUpdates` | `tree_updates.dfy` | `tree` and `tree_update` |
| `ActionRequests` | `actions.dfy` | `action_data`, `action_request`, the C action handler |
| `Handles` | `handles.dfy` | boxed handles: builders, nodes, action handlers, queued events |

The header's comments say little about the cases below; the model
follows the code, and says where the header's wording leaves room:

- **An all-zero id.** accesskit.h:552-556 asks whoever fills an `accesskit_node_id` by hand to "ensure it is not filled up only with zeroes". Nothing checks this: common.rs:317 converts with `NonZeroU128::new_unchecked`. So the model makes a non-zero id a precondition of `NodeIds.NodeIdFromC`.
- **A tree update with no nodes.** accesskit.h:962-965 asks only that `ids` and `nodes` point to `nodes_length` elements, which a zero length with null arrays meets. The code still calls `slice::from_raw_parts` on both (common.rs:896-897). This is Finding 2 below.
- **Raising queued events.** accesskit.h:2377-2381 and 2475-2480 say only that "Memory is also freed" by the raise. The code also accepts a null handle and then does nothing (windows.rs:47-51, `Handles.QueuedEventsRaise`).
- **Who frees what in a tree update.** accesskit.h:964 makes the caller "responsible for freeing `ids` and `nodes`": the arrays themselves. The node boxes the `nodes` entries point to are taken over by the conversion (common.rs:899, `TreeUpdates.TreeUpdateFromC`). The node-id list setters, in contrast, adopt the caller's array itself through `Vec::from_raw_parts` (common.rs:219-229). The model covers what that adoption reads (`TextValues.NodeIdsCastTo`, Finding 4) but not who frees the buffer.
- **The text selection setter's name.** It is exported as `accesskit_builder_set_text_selection` (accesskit.h:2255), without the `node_` prefix the other setters carry.

## Model

| member | source | states |
|---|---|---|
| LittleEndian.FromLeToLe | bindings/c/src/common.rs:309-319 | a `u128` written as 16 little-endian bytes (`to_le_bytes`) and read back (`from_le_bytes`) is the same number |
| LittleEndian.ToLeFromLe | bindings/c/src/common.rs:309-319 | any byte array read as a little-endian number and written back gives the same bytes |
| LittleEndian.FromLeZero | bindings/c/src/accesskit.h:552-559 | the bytes denote zero exactly when every byte is zero, so "not all zero" means a non-zero id |
| LittleEndian.ToLeDigit | bindings/c/src/common.rs:309-313 | byte i of the encoding is the i-th base-256 digit of the number |
| LittleEndian.ToLeHighDigitsZero | bindings/c/src/common.rs:826-831 | a number below 256^j has all its bytes from position j on equal to zero |
| FfiValues.OptFromOption | bindings/c/src/common.rs:333 | an option written into an optional struct sets `has_value` exactly when present, carries the present value, and leaves the filler in an absent one |
| FfiValues.OptToOption | bindings/c/src/accesskit.h:566-574 | an optional struct reads as present exactly when `has_value` is set |
| FfiValues.OptRoundTrip | bindings/c/src/accesskit.h:566-574 | an option written into an optional struct reads back unchanged, whatever filler the absent `value` holds |
| FfiValues.RawParts | bindings/c/src/common.rs:893-898 | `slice::from_raw_parts(p, n)` needs a non-null pointer to n elements and yields those n elements in order |
| FfiValues.SliceFrom | bindings/c/src/common.rs:211-218 | a slice struct's `length` is the slice's length and its pointer covers that many elements |
| FfiValues.SliceToVec | bindings/c/src/common.rs:219-229 | reading a slice struct back gives the `length` elements behind `values`, in order |
| FfiValues.EmptySlice | bindings/c/src/common.rs:230-237 | the default slice struct has length 0 and a null pointer |
| FfiValues.SliceRoundTrip | bindings/c/src/common.rs:211-229 | a Rust slice exposed as a slice struct and read back is the same element sequence |
| FfiValues.SliceFromVecRoundTrip | bindings/c/src/common.rs:211-229 | a C slice read into Rust and exposed again has the same length and elements |
| FfiValues.OptSliceFrom | bindings/c/src/common.rs:428-448 | `None` becomes `{has_value = false, length = 0, values = null}`; `Some(s)` becomes `has_value = true` with `length = \|s\|` |
| FfiValues.OptSliceRead | bindings/c/src/common.rs:420-448 | an optional slice reads as present exactly when `has_value` is set, with `length` elements |
| FfiValues.OptSliceRoundTrip | bindings/c/src/common.rs:428-448 | an optional slice written and read back is the same option |
| FfiValues.ReadCStr | bindings/c/src/common.rs:373-377 | `CStr::from_ptr` yields the characters before the first NUL, and they contain no NUL |
| FfiValues.CStringInto | bindings/c/src/common.rs:347-352 | `CString::new` gives a null pointer exactly when the text holds a NUL, and otherwise a terminated string that reads back as the text |
| FfiValues.StringGetter | bindings/c/src/common.rs:343-371 | a string getter returns null exactly when the property is absent or its text holds a NUL, and otherwise exactly the stored text |
| FfiValues.StringSetterArg | bindings/c/src/common.rs:373-377 | a string setter receives the caller's text up to its terminator, which contains no NUL |
| FfiValues.SetThenGet | bindings/c/src/common.rs:343-377 | text set from C comes back from the getter as a non-null string with the same contents |
| NodeIds.NodeIdToC | bindings/c/src/common.rs:309-313 | the 16 bytes are the little-endian digits of the id and are never all zero |
| NodeIds.NodeIdFromC | bindings/c/src/common.rs:315-319 | defined only for bytes that are not all zero, and yields the number those bytes denote |
| NodeIds.NodeIdRoundTrip | bindings/c/src/common.rs:309-319 | `NodeId` to `node_id` and back is the same id |
| NodeIds.CNodeIdRoundTrip | bindings/c/src/common.rs:309-319 | a valid `node_id` to `NodeId` and back is the same 16 bytes |
| NodeIds.NodeIdToCInjective | bindings/c/src/common.rs:309-313 | distinct ids have distinct byte forms, and equal ids have equal ones |
| NodeIds.OptNodeIdToC | bindings/c/src/common.rs:331-337 | an optional id is present in C exactly when present in Rust, with a valid id that decodes to the same value |
| NodeIds.OptNodeIdFromC | bindings/c/src/common.rs:331-337 | an `opt_node_id` reads as present exactly when `has_value` is set, and its id encodes back to `value` |
| NodeIds.OptNodeIdRoundTrip | bindings/c/src/common.rs:331-337 | an optional id round-trips through `opt_node_id` |
| NodeIds.NodeIdNew | bindings/c/src/common.rs:826-831 | `accesskit_node_id_new(n)` is absent exactly when n is 0; otherwise it decodes to n and its bytes 8 to 15 are zero |
| NodeIds.NodeId42 | bindings/c/src/common.rs:826-831 | the id made from 42 survives the byte round trip and differs from the all-zero bytes |
| TextValues.TextPositionToC | bindings/c/src/common.rs:728-735 | the node id becomes a valid `node_id` that decodes to it, and the character index is copied |
| TextValues.TextPositionFromC | bindings/c/src/common.rs:719-726 | the `node_id` decodes to an id that encodes back to it, and the character index is copied |
| TextValues.TextSelectionToC | bindings/c/src/common.rs:752-768 | both ends of a selection become valid C positions, the anchor converted into `anchor` and the focus into `focus` |
| TextValues.TextSelectionFromC | bindings/c/src/common.rs:743-750 | the C `anchor` becomes the anchor and the C `focus` the focus, each converted as a text position |
| TextValues.TextSelectionRoundTrip | bindings/c/src/common.rs:743-768 | a selection handed to C and read back has the same anchor and focus |
| TextValues.CTextSelectionRoundTrip | bindings/c/src/common.rs:743-768 | a valid C selection read into Rust and handed back is the same struct |
| TextValues.CustomActionToC | bindings/c/src/common.rs:808-818 | the id is copied; the description is null exactly when it holds a NUL, and otherwise reads back as the description |
| TextValues.CustomActionFromC | bindings/c/src/common.rs:790-806 | the id is copied and the description is exactly the text before the first NUL of the C string |
| TextValues.CustomActionRoundTrip | bindings/c/src/common.rs:790-818 | a custom action whose description has no NUL survives the trip through C |
| TextValues.CCustomActionRoundTrip | bindings/c/src/common.rs:790-818 | a C custom action read into Rust and handed back has the same id and description text |
| TextValues.CustomActionsToC | bindings/c/src/common.rs:249-257 | the array has one converted element per action, in order |
| TextValues.CustomActionsFromC | bindings/c/src/common.rs:258-266 | reading the array gives `length` actions, each element converted, in order |
| TextValues.CustomActionsRoundTrip | bindings/c/src/common.rs:249-266 | a list of custom actions without NUL in their descriptions comes back whole and in order |
| TextValues.NodeIdsCastFrom | bindings/c/src/common.rs:211-218 | the `node_ids` getter as written exposes the ids' in-memory bytes, one element per id |
| TextValues.NodeIdsFrom | bindings/c/src/common.rs:211-218 | corrected: each element of the `node_ids` array is a valid `node_id` that decodes to the id at that position |
| TextValues.NodeIdsCastAgreesOnLittleEndian | bindings/c/src/common.rs:211-218 | on a little-endian machine the cast gives exactly the converted ids |
| TextValues.NodeIdsCastDisagreesOnBigEndian | bindings/c/src/common.rs:211-218 | on a big-endian machine the cast hands C the id 1 as bytes that denote 2^120 |
| TextValues.ReverseInvolutive | bindings/c/src/common.rs:211-229 | reversing a byte order twice restores it, and keeps bytes all-zero or not |
| TextValues.MemoryValue | bindings/c/src/common.rs:219-229 | the number read from 16 in-memory bytes is below 2^128, lays out as those same bytes, and is zero exactly when they all are |
| TextValues.MemoryRoundTrip | bindings/c/src/common.rs:211-229 | a `u128` laid out in memory and read back on the same machine is the same number |
| TextValues.NodeIdsCastTo | bindings/c/src/common.rs:219-229 | the node-id list setters as written read each C element's bytes as the id's in-memory form: one id per element, laid out as exactly those bytes; no element may be all zero |
| TextValues.NodeIdsTo | bindings/c/src/common.rs:286-293 | corrected: the setters receive one id per C element, in order, each converting back to that element |
| TextValues.NodeIdsRoundTrip | bindings/c/src/common.rs:211-229 | ids exposed by the corrected getter and set back by the corrected setter are the same ids, in order |
| TextValues.CNodeIdsRoundTrip | bindings/c/src/common.rs:211-229 | a valid C id array read by the corrected setter and exposed again holds the same elements |
| TextValues.NodeIdsCastRoundTrip | bindings/c/src/common.rs:211-229 | on one machine the as-written cast in each direction undoes the other |
| TextValues.NodeIdsCastToAgreesOnLittleEndian | bindings/c/src/common.rs:219-229 | on a little-endian machine the adopted array reads exactly as the converted ids |
| TextValues.NodeIdsCastToDisagreesOnBigEndian | bindings/c/src/common.rs:219-229 | on a big-endian machine the `node_id` of the id 1 is set as the id 2^120, while the corrected setter gives 1 |
| Nodes.PropertyCalls | bindings/c/src/common.rs:163-169 | the property calls among a run of mutator calls are exactly those that are not `set_role`, and no more of them than calls |
| Nodes.BuildReflectsCalls | bindings/c/src/common.rs:492-498 | after any run of mutator calls, the built node's role is the one the last `set_role` named (the builder's first role when there is none) and its properties are the builder's followed by every other call, in order |
| Nodes.SetRole | bindings/c/src/common.rs:494-497 | `set_role` replaces the role and keeps every property call made so far |
| Nodes.Delegate | bindings/c/src/common.rs:163-169 | any other mutator is appended to the builder's calls and leaves the role alone |
| Nodes.SetRoleWins | bindings/c/src/common.rs:494-497 | a builder made for one role, given any property calls and then `set_role` with another role, builds a node of the second role holding exactly those calls, in order |
| TreeUpdates.TreeNew | bindings/c/src/common.rs:863-871 | `accesskit_tree_new(root)` has that root and no root scroller |
| TreeUpdates.TreeFromC | bindings/c/src/common.rs:875-882 | the root and the optional root scroller are carried into Rust unchanged |
| TreeUpdates.TreeNewFromC | bindings/c/src/common.rs:863-882 | a tree made by `accesskit_tree_new` reaches Rust with that root and no root scroller |
| TreeUpdates.NodeSlots | bindings/c/src/accesskit.h:966-972 | the `nodes` array holds exactly `nodes_length` entries |
| TreeUpdates.KeptIndices | bindings/c/src/common.rs:898-902 | the kept positions are strictly ascending, in range, point at non-null nodes, and include every non-null one |
| TreeUpdates.TreeUpdateFromC | bindings/c/src/common.rs:893-909 | the node list is, in order, `(ids[i], node)` for each ascending i with a non-null `nodes[i]`, where node is what that box held, and no longer than `nodes_length`; the boxes taken are no longer C's, and freeing one afterwards is undefined, while every other node box is untouched; `tree` and `focus` are carried over, absent staying absent |
| TreeUpdates.TakeNodes | bindings/c/src/common.rs:895-902 | walking every entry pairs each non-null `nodes[i]`'s node with `ids[i]`, in ascending order, and takes back exactly the boxes the entries name |
| TreeUpdates.TakeEntry | bindings/c/src/common.rs:898-901 | one entry of the walk extends the pairing and the set of boxes taken by that entry alone |
| TreeUpdates.WalkStep | bindings/c/src/common.rs:898-901 | a non-null entry adds its id and its box's node to the pairing and a null one adds nothing |
| TreeUpdates.ConsumedAll | bindings/c/src/common.rs:899 | after the walk, a box is still C's exactly when it was and no entry names it, and freeing a taken box is undefined |
| TreeUpdates.NotYetConsumed | bindings/c/src/common.rs:898-899 | when the walk reaches a non-null entry, its box is still C's, because no earlier entry names the same box |
| TreeUpdates.ConsumeStep | bindings/c/src/common.rs:898-901 | each step of the walk takes back exactly the box of a non-null entry and nothing for a null one |
| TreeUpdates.KeptIndicesExact | bindings/c/src/common.rs:898-902 | an entry is kept exactly when its node is non-null, and a kept entry appears once, so no id is paired with another entry's node |
| TreeUpdates.FocusOnlyUpdateAsWritten | bindings/c/src/common.rs:893-898 | an update with no nodes and null arrays breaks the precondition of the conversion as written; the corrected conversion accepts it, keeps no node, consumes no node box and carries the focus |
| ActionRequests.ActionDataToC | bindings/c/src/common.rs:932-947 | the tag is the variant's position; a `Value` becomes null exactly when its text holds a NUL and otherwise reads back as the text; a custom action id, number, rectangle, point, scroll offset are copied unchanged into their own field, and a text selection is converted end by end |
| ActionRequests.ActionDataRead | bindings/c/src/accesskit.h:865-900 | a C reader gets the variant its tag names carrying that field's payload unchanged (the text before the terminator for a `value`, each end converted for a selection), or nothing when `value` is null |
| ActionRequests.ActionDataRoundTrip | bindings/c/src/common.rs:932-947 | the C side reads back exactly the data converted, for all seven variants, unless it is a `Value` holding a NUL, which reaches C as a null pointer |
| ActionRequests.ActionRequestToC | bindings/c/src/common.rs:956-964 | the action becomes its ordinal; the target becomes a valid id that decodes to it; data is present exactly when given, and then converted |
| ActionRequests.ActionRequestRead | bindings/c/src/accesskit.h:912-916 | a C request reads back exactly when its ordinal is below 26 and its data, when present, is not a `Value` with a null pointer; it then has the action the ordinal names, the target, and the data read from the C data exactly when `has_value` is set |
| ActionRequests.ActionRequestRoundTrip | bindings/c/src/common.rs:949-964 | every request reaches C whole, whatever the filler, unless its data is a `Value` holding a NUL |
| ActionRequests.PayloadOkInC | bindings/c/src/accesskit.h:38-105 | a request carries the payload its action documents exactly when the C struct it becomes has the matching tag |
| ActionRequests.ActionHandlerNew | bindings/c/src/common.rs:990-999 | a new action handler keeps exactly the callback, present or not, and the userdata it was given |
| ActionRequests.DoAction | bindings/c/src/common.rs:1007-1014 | with a callback, the handler calls it once with exactly `From<ActionRequest>`'s struct for the request and its userdata; without one it calls nothing |
| ActionRequests.DoActionDelivers | bindings/c/src/common.rs:1007-1014 | what the callback reads from the request it receives is the request that was made |
| ActionRequests.DropFreesAsWritten | bindings/c/src/common.rs:922-928 | dropping `action_data` frees the `value` pointer of a `Value`, null or not, and frees nothing for other variants |
| ActionRequests.DropFreesNullAsWritten | bindings/c/src/common.rs:922-947 | the conversion of a `Value` holding a NUL is dropped by freeing a null pointer |
| ActionRequests.DropFrees | bindings/c/src/common.rs:922-928 | corrected: frees the `value` string only when it is non-null |
| ActionRequests.DropFreesWhatWasAllocated | bindings/c/src/common.rs:922-947 | the corrected drop frees exactly the string the conversion allocated, and never a null pointer |
| ActionRequests.DropFreesAgree | bindings/c/src/common.rs:922-947 | the corrected and the written drop agree exactly on data that converts without a NUL |
| Handles.ToMutPtr | bindings/c/src/common.rs:835-838 | boxing puts the value at an unused non-null address and leaves the other boxes alone |
| Handles.ToBox | bindings/c/src/windows.rs:47-49 | taking back null yields nothing and changes nothing; taking back a live box yields its value, and C no longer owns it |
| Handles.BoxRoundTrip | bindings/c/src/common.rs:835-854 | taking back a box just handed out returns its value and restores the other boxes |
| Handles.NoDoubleFree | bindings/c/src/accesskit.h:2283-2288 | after a box is taken back, passing its pointer again is undefined |
| Handles.BuilderNew | bindings/c/src/common.rs:835-838 | `accesskit_node_builder_new` boxes a builder for the role with no properties at a new non-null address, and every other builder is unchanged |
| Handles.BuilderUpdate | bindings/c/src/common.rs:163-169 | a mutator, a property setter or `set_role`, updates that builder in place and touches no other box; on a null builder it does nothing |
| Handles.BuilderBuild | bindings/c/src/common.rs:840-849 | `build` on a null builder changes nothing and returns null; otherwise it takes the builder back, and with a class set it boxes the node the builder builds at a new address, while with a null class set it returns null and makes no node; either way the builder's pointer is dead and every other builder and node is unchanged |
| Handles.BuildWithoutClassesFrees | bindings/c/src/common.rs:845-846 | `build` with a null class set frees the builder exactly as `free` would, and makes no node |
| Handles.Free | bindings/c/src/common.rs:851-854 | `accesskit_node_builder_free`, `accesskit_node_free` and `accesskit_action_handler_free` take the box back and drop it, leaving the other boxes unchanged; null is ignored |
| Handles.BuilderLifecycle | bindings/c/src/accesskit.h:2277-2288 | new, mutators, then build with a class set yields the node with the role the last `set_role` named (or the first role) and every other call in order, leaves the builders as before, and leaves the pointer dead so a later `free` is undefined |
| Handles.BuilderAbandoned | bindings/c/src/accesskit.h:2283-2288 | new, mutators, then free leaves the builders as before and the pointer dead |
| Handles.UpdateAll | bindings/c/src/common.rs:163-169 | a run of mutator calls keeps the set of live builders |
| Handles.UpdateAllKeeps | bindings/c/src/common.rs:492-498 | a run of mutator calls, `set_role` among them, reaches the one builder, in order, and no other box; on a null builder none of them changes anything |
| Handles.HandlerNew | bindings/c/src/common.rs:990-999 | `accesskit_action_handler_new` boxes a handler with the given callback and userdata at a new non-null address, and every other handler is unchanged |
| Handles.HandlerNewThenFree | bindings/c/src/common.rs:990-1004 | a handler freed without being handed on leaves the handler boxes as before, and its pointer dead |
| Handles.QueuedEventsRaise | bindings/c/src/windows.rs:47-51 | raising null raises nothing and changes nothing; otherwise the events are raised in order and their memory is freed, and every other queue is unchanged |
| Handles.RaiseOnce | bindings/c/src/accesskit.h:2475-2480 | queued events are delivered whole by the first raise, and a second raise of the same pointer is undefined |
| Enums.ActionFromOrdinal | bindings/c/src/accesskit.h:29-108 | a byte names a variant exactly when it is below 26, and then it names the variant declared at that position |
| Enums.ActionOrdinalRoundTrip | bindings/c/src/accesskit.h:29-108 | every variant's `uint8_t` ordinal reads back as that variant |
| Enums.AriaCurrentFromOrdinal | bindings/c/src/accesskit.h:110-119 | a byte names a variant exactly when it is below 7, and then it names the variant declared at that position |
| Enums.AriaCurrentOrdinalRoundTrip | bindings/c/src/accesskit.h:110-119 | every variant's `uint8_t` ordinal reads back as that variant |
| Enums.CheckedStateFromOrdinal | bindings/c/src/accesskit.h:121-126 | a byte names a variant exactly when it is below 3, and then it names the variant declared at that position |
| Enums.CheckedStateOrdinalRoundTrip | bindings/c/src/accesskit.h:121-126 | every variant's `uint8_t` ordinal reads back as that variant |
| Enums.DefaultActionVerbFromOrdinal | bindings/c/src/accesskit.h:136-153 | a byte names a variant exactly when it is below 9, and then it names the variant declared at that position |
| Enums.DefaultActionVerbOrdinalRoundTrip | bindings/c/src/accesskit.h:136-153 | every variant's `uint8_t` ordinal reads back as that variant |
| Enums.DescriptionFromFromOrdinal | bindings/c/src/accesskit.h:155-173 | a byte names a variant exactly when it is below 7, and then it names the variant declared at that position |
| Enums.DescriptionFromOrdinalRoundTrip | bindings/c/src/accesskit.h:155-173 | every variant's `uint8_t` ordinal reads back as that variant |
| Enums.HasPopupFromOrdinal | bindings/c/src/accesskit.h:175-183 | a byte names a variant exactly when it is below 6, and then it names the variant declared at that position |
| Enums.HasPopupOrdinalRoundTrip | bindings/c/src/accesskit.h:175-183 | every variant's `uint8_t` ordinal reads back as that variant |
| Enums.InvalidFromOrdinal | bindings/c/src/accesskit.h:191-196 | a byte names a variant exactly when it is below 3, and then it names the variant declared at that position |
| Enums.InvalidOrdinalRoundTrip | bindings/c/src/accesskit.h:191-196 | every variant's `uint8_t` ordinal reads back as that variant |
| Enums.ListStyleFromOrdinal | bindings/c/src/accesskit.h:198-209 | a byte names a variant exactly when it is below 6, and then it names the variant declared at that position |
| Enums.ListStyleOrdinalRoundTrip | bindings/c/src/accesskit.h:198-209 | every variant's `uint8_t` ordinal reads back as that variant |
| Enums.LiveFromOrdinal | bindings/c/src/accesskit.h:211-216 | a byte names a variant exactly when it is below 3, and then it names the variant declared at that position |
| Enums.LiveOrdinalRoundTrip | bindings/c/src/accesskit.h:211-216 | every variant's `uint8_t` ordinal reads back as that variant |
| Enums.NameFromFromOrdinal | bindings/c/src/accesskit.h:218-248 | a byte names a variant exactly when it is below 8, and then it names the variant declared at that position |
| Enums.NameFromOrdinalRoundTrip | bindings/c/src/accesskit.h:218-248 | every variant's `uint8_t` ordinal reads back as that variant |
| Enums.OrientationFromOrdinal | bindings/c/src/accesskit.h:250-260 | a byte names a variant exactly when it is below 2, and then it names the variant declared at that position |
| Enums.OrientationOrdinalRoundTrip | bindings/c/src/accesskit.h:250-260 | every variant's `uint8_t` ordinal reads back as that variant |
| Enums.RoleFromOrdinal | bindings/c/src/accesskit.h:274-471 | a byte names a variant exactly when it is below 184, and then it names the variant declared at that position |
| Enums.RoleOrdinalRoundTrip | bindings/c/src/accesskit.h:274-471 | every variant's `uint8_t` ordinal reads back as that variant |
| Enums.SortDirectionFromOrdinal | bindings/c/src/accesskit.h:473-479 | a byte names a variant exactly when it is below 4, and then it names the variant declared at that position |
| Enums.SortDirectionOrdinalRoundTrip | bindings/c/src/accesskit.h:473-479 | every variant's `uint8_t` ordinal reads back as that variant |
| Enums.TextAlignFromOrdinal | bindings/c/src/accesskit.h:481-487 | a byte names a variant exactly when it is below 4, and then it names the variant declared at that position |
| Enums.TextAlignOrdinalRoundTrip | bindings/c/src/accesskit.h:481-487 | every variant's `uint8_t` ordinal reads back as that variant |
| Enums.TextDecorationFromOrdinal | bindings/c/src/accesskit.h:489-496 | a byte names a variant exactly when it is below 5, and then it names the variant declared at that position |
| Enums.TextDecorationOrdinalRoundTrip | bindings/c/src/accesskit.h:489-496 | every variant's `uint8_t` ordinal reads back as that variant |
| Enums.TextDirectionFromOrdinal | bindings/c/src/accesskit.h:498-504 | a byte names a variant exactly when it is below 4, and then it names the variant declared at that position |
| Enums.TextDirectionOrdinalRoundTrip | bindings/c/src/accesskit.h:498-504 | every variant's `uint8_t` ordinal reads back as that variant |
| Enums.VerticalOffsetFromOrdinal | bindings/c/src/accesskit.h:506-510 | a byte names a variant exactly when it is below 2, and then it names the variant declared at that position |
| Enums.VerticalOffsetOrdinalRoundTrip | bindings/c/src/accesskit.h:506-510 | every variant's `uint8_t` ordinal reads back as that variant |

## Left out

- Geometry (`accesskit_affine_*`, `accesskit_rect_*`, points, sizes, vectors): floating-point arithmetic in code that is not part of this model. Points and rectangles appear only as copied bit patterns.
- Platform adapters (`windows.rs`, `macos.rs`, `unix.rs`) and the Python binding: handle plumbing into platform accessibility APIs. From them the model keeps only the null check in `*_queued_events_raise`.
- Node and builder internals, `NodeClassSet` interning, and every per-property getter and setter: they delegate to the `accesskit` crate. A builder is a role plus the log of delegated calls. `Nodes.PropertyCall` stands for any setter, pusher or clearer other than `set_role`, which is modelled on its own as `Nodes.SetRoleTo`.
- The macros `opt_struct!`, `try_box_from_ptr!`, `try_ref_from_ptr!` and `try_mut_from_ptr!` are defined in `lib.rs`, which is not part of this model; their behaviour is modelled from how common.rs uses them (`FfiValues.OptFromOption`, `FfiValues.OptToOption`, `Handles.ToBox`, `Handles.BuilderUpdate`).
  - The `value` of an absent optional struct is a `filler` parameter, except for node ids, where it is the all-zero bytes.
  - A null builder or a null class set given to `build` is taken to make it return a null node early, as `to_box` does for null.
  - A non-null class set is taken to be a valid one; what it holds is not modelled.
- The `lengths` and `opt_coords` structs are the generic `FfiValues.SliceStruct` and `FfiValues.OptSliceStruct` over bytes and float bit patterns.
- Ownership of raw buffers is not modelled: `Vec::from_raw_parts` adopting a caller's array, `mem::forget`, `CString::into_raw`, and freeing returned strings.
- UTF-8 repair by `to_string_lossy` is not modelled. Strings are sequences of characters, and a C string is read up to its first NUL.
- `usize` is modelled as `nat`, because these values are only copied. Role is modelled by its ordinal, with the 184 names in `Enums.ROLE_NAMES`.
- Thread affinity of queued events and action handlers is not modelled.
- The callback's own behaviour is not modelled. A callback is an address, and `ActionRequests.DoAction` returns the calls it makes.
- ActionRequests.PayloadOk: states the header's documented requirements only. Actions without documented data accept any data, and the binding itself checks none of them.

## Findings

| source | as written | input that shows it | evidently intended | confidence | as-written member | corrected member |
|---|---|---|---|---|---|---|
| bindings/c/src/common.rs:922-947 | `Drop for action_data` passes a `Value`'s pointer to `accesskit_string_free` even when the conversion stored null, and `CString::from_raw(null)` is undefined | `ActionData::Value` with text `"\0"` converts to `Value(null)`, then is dropped after the callback returns | free the string only when the pointer is non-null | medium, not executed | ActionRequests.DropFreesAsWritten, ActionRequests.DropFreesNullAsWritten | ActionRequests.DropFrees, ActionRequests.DropFreesWhatWasAllocated |
| bindings/c/src/common.rs:893-898 | `From<tree_update>` calls `slice::from_raw_parts` on `ids` and `nodes` even when `nodes_length` is 0, which requires non-null aligned pointers | a focus-only update with `nodes_length = 0` and null or uninitialized arrays, as the Windows example sends at hello_world.c:181-185 | read no array when `nodes_length` is 0 | medium, not executed | TreeUpdates.FocusOnlyUpdateAsWritten | TreeUpdates.TreeUpdateFromC |
| bindings/c/src/common.rs:211-218 | the `node_ids` getter casts `*const NodeId` to `*const node_id`, exposing the ids' in-memory bytes instead of `to_le_bytes` | the id 1 on a big-endian machine reads in C as 2^120 | convert each id with `From<NodeId> for node_id` | low (every supported target is little-endian), not executed | TextValues.NodeIdsCastFrom, TextValues.NodeIdsCastDisagreesOnBigEndian | TextValues.NodeIdsFrom |
| bindings/c/src/common.rs:219-229 | `From<node_ids> for Vec<NodeId>`, which `accesskit_node_builder_set_children` and the other node-id list setters use (common.rs:286-293), adopts the `node_id` array as `NodeId`s, reading each element's bytes in the machine's own order instead of through `From<node_id> for NodeId` | the `node_id` of the id 1, as `accesskit_node_id_new(1)` makes it, set as a child on a big-endian machine becomes the id 2^120; the Windows example sets children this way at hello_world.c:66-70 | convert each element with `From<node_id> for NodeId` | low (every supported target is little-endian), not executed | TextValues.NodeIdsCastTo, TextValues.NodeIdsCastToDisagreesOnBigEndian | TextValues.NodeIdsTo |

=== FILE: actions.dfy ===
/**
 * Action requests as the binding hands them to C: `accesskit_action_data`
 * (a tagged union), `accesskit_action_request`, the C action handler that
 * receives them, and what dropping the converted data releases.
 */
module ActionRequests {
  import opened Wrappers
  import opened LittleEndian
  import opened FfiValues
  import opened NodeIds
  import TextValues
  import Enums

  /** `f64`, kept as its bit pattern: the binding only copies floats. */
  type F64 = bv64

  /** `accesskit_point`. */
  datatype Point = Point(x: F64, y: F64)

  /** `accesskit_rect`. */
  datatype Rect = Rect(x0: F64, y0: F64, x1: F64, y1: F64)

  /** The Rust `ActionData`. */
  datatype ActionData =
      CustomAction(id: TextValues.I32)
    | Value(text: string)
    | NumericValue(number: F64)
    | ScrollTargetRect(rect: Rect)
    | ScrollToPoint(point: Point)
    | SetScrollOffset(offset: Point)
    | SetTextSelection(selection: TextValues.TextSelection)
  {
    /** The position of the variant in the declaration. */
    function Kind(): byte {
      match this
      case CustomAction(_) => 0
      case Value(_) => 1
      case NumericValue(_) => 2
      case ScrollTargetRect(_) => 3
      case ScrollToPoint(_) => 4
      case SetScrollOffset(_) => 5
      case SetTextSelection(_) => 6
    }
  }

  /** `accesskit_action_data`: the tag with the payload the tag selects. */
  datatype CActionData =
      CCustomAction(customAction: TextValues.I32)
    | CValue(value: CharPtr)
    | CNumericValue(numericValue: F64)
    | CScrollTargetRect(scrollTargetRect: Rect)
    | CScrollToPoint(scrollToPoint: Point)
    | CSetScrollOffset(setScrollOffset: Point)
    | CSetTextSelection(setTextSelection: TextValues.CTextSelection)
  {
    /** `accesskit_action_data_Tag`, `ACCESSKIT_ACTION_DATA_CUSTOM_ACTION` = 0 to `..._SET_TEXT_SELECTION` = 6. */
    function Tag(): byte {
      match this
      case CCustomAction(_) => 0
      case CValue(_) => 1
      case CNumericValue(_) => 2
      case CScrollTargetRect(_) => 3
      case CScrollToPoint(_) => 4
      case CSetScrollOffset(_) => 5
      case CSetTextSelection(_) => 6
    }
  }

  /**
   * `From<ActionData> for action_data`: each payload is copied into the
   * variant of the same name; a `Value` becomes a fresh C string, or a
   * null pointer when the text holds a NUL.
   */
  function ActionDataToC(d: ActionData): (c: CActionData)
    ensures c.Tag() == d.Kind()
    ensures d.Value? ==> (c.value.NullChars? <==> NUL in d.text)
    ensures d.Value? && c.value.Chars? ==> Terminated(c.value) && ReadCStr(c.value) == d.text
    ensures d.SetTextSelection? ==> TextValues.ValidCTextSelection(c.setTextSelection)
    ensures d.CustomAction? ==> c.customAction == d.id
    ensures d.NumericValue? ==> c.numericValue == d.number
    ensures d.ScrollTargetRect? ==> c.scrollTargetRect == d.rect
    ensures d.ScrollToPoint? ==> c.scrollToPoint == d.point
    ensures d.SetScrollOffset? ==> c.setScrollOffset == d.offset
    ensures d.SetTextSelection? ==> c.setTextSelection == TextValues.TextSelectionToC(d.selection)
  {
    match d
    case CustomAction(id) => CCustomAction(id)
    case Value(text) => CValue(CStringInto(text))
    case NumericValue(n) => CNumericValue(n)
    case ScrollTargetRect(r) => CScrollTargetRect(r)
    case ScrollToPoint(p) => CScrollToPoint(p)
    case SetScrollOffset(p) => CSetScrollOffset(p)
    case SetTextSelection(s) => CSetTextSelection(TextValues.TextSelectionToC(s))
  }

  /** A C reader can use the struct: a non-null `value` is terminated and selection ids are non-zero. */
  predicate ReadableCActionData(c: CActionData) {
    match c
    case CValue(p) => p.NullChars? || Terminated(p)
    case CSetTextSelection(s) => TextValues.ValidCTextSelection(s)
    case _ => true
  }

  /**
   * What a C callback reads out of the union: the payload of the tagged
   * variant, with a null `value` pointer reading as nothing.
   */
  function ActionDataRead(c: CActionData): (o: Option<ActionData>)
    requires ReadableCActionData(c)
    ensures o.None? <==> c.CValue? && c.value.NullChars?
    ensures o.Some? ==> o.value.Kind() == c.Tag()
    ensures c.CCustomAction? ==> o == Some(CustomAction(c.customAction))
    ensures c.CValue? && c.value.Chars? ==> o == Some(Value(ReadCStr(c.value)))
    ensures c.CNumericValue? ==> o == Some(NumericValue(c.numericValue))
    ensures c.CScrollTargetRect? ==> o == Some(ScrollTargetRect(c.scrollTargetRect))
    ensures c.CScrollToPoint? ==> o == Some(ScrollToPoint(c.scrollToPoint))
    ensures c.CSetScrollOffset? ==> o == Some(SetScrollOffset(c.setScrollOffset))
    ensures c.CSetTextSelection? ==> o == Some(SetTextSelection(TextValues.TextSelectionFromC(c.setTextSelection)))
  {
    match c
    case CCustomAction(id) => Some(CustomAction(id))
    case CValue(p) => if p.NullChars? then None else Some(Value(ReadCStr(p)))
    case CNumericValue(n) => Some(NumericValue(n))
    case CScrollTargetRect(r) => Some(ScrollTargetRect(r))
    case CScrollToPoint(p) => Some(ScrollToPoint(p))
    case CSetScrollOffset(p) => Some(SetScrollOffset(p))
    case CSetTextSelection(s) => Some(SetTextSelection(TextValues.TextSelectionFromC(s)))
  }

  /** Data that C receives intact: anything but a `Value` whose text holds a NUL. */
  predicate Representable(d: ActionData) {
    d.Value? ==> NUL !in d.text
  }

  /**
   * The C side reads back exactly the data the binding converted, unless
   * it was a `Value` holding a NUL, which reaches C as a null pointer.
   */
  lemma ActionDataRoundTrip(d: ActionData)
    ensures ReadableCActionData(ActionDataToC(d))
    ensures ActionDataRead(ActionDataToC(d)) == Some(d) <==> Representable(d)
    ensures !Representable(d) ==> ActionDataToC(d) == CValue(NullChars)
  {
    match d
    case SetTextSelection(s) =>
      TextValues.TextSelectionRoundTrip(s);
    case _ =>
  }

  // ---------------------------------------------------------------------
  // action_request
  // ---------------------------------------------------------------------

  /** The Rust `ActionRequest`. */
  datatype ActionRequest = ActionRequest(action: Enums.Action, target: NodeId, data: Option<ActionData>)

  /** `accesskit_action_request`: the action as its `uint8_t`, the target id, and the optional data. */
  datatype CActionRequest = CActionRequest(action: byte, target: CNodeId, data: OptStruct<CActionData>)

  /**
   * `From<ActionRequest> for action_request`. The `value` of absent data
   * is whatever `opt_struct!` fills in, taken here as `filler`.
   */
  function ActionRequestToC(r: ActionRequest, filler: CActionData): (c: CActionRequest)
    ensures c.action == r.action.Ordinal()
    ensures ValidCNodeId(c.target) && NodeIdFromC(c.target) == r.target
    ensures c.data.hasValue <==> r.data.Some?
    ensures r.data.Some? ==> c.data.value == ActionDataToC(r.data.value)
  {
    NodeIdRoundTrip(r.target);
    var data := match r.data
      case Some(d) => OptStruct(true, ActionDataToC(d))
      case None => OptStruct(false, filler);
    CActionRequest(r.action.Ordinal(), NodeIdToC(r.target), data)
  }

  /** A C reader can use the request: a non-zero target and readable data when present. */
  predicate ReadableCActionRequest(c: CActionRequest) {
    ValidCNodeId(c.target) && (c.data.hasValue ==> ReadableCActionData(c.data.value))
  }

  /**
   * What a C callback reads: the action the `uint8_t` names (none for an
   * ordinal past the last action), the target, and the data when
   * `has_value` is set; the filler is never looked at.
   */
  function ActionRequestRead(c: CActionRequest): (o: Option<ActionRequest>)
    requires ReadableCActionRequest(c)
    ensures o.Some? ==> o.value.action.Ordinal() == c.action && NodeIdToC(o.value.target) == c.target
    ensures o.Some? ==> (o.value.data.Some? <==> c.data.hasValue)
    ensures o.Some? <==> c.action as nat < Enums.ACTION_COUNT
                         && !(c.data.hasValue && c.data.value.CValue? && c.data.value.value.NullChars?)
    ensures o.Some? && c.data.hasValue ==> o.value.data == ActionDataRead(c.data.value)
  {
    CNodeIdRoundTrip(c.target);
    var data := if c.data.hasValue then ActionDataRead(c.data.value) else None;
    match Enums.ActionFromOrdinal(c.action)
    case None => None
    case Some(a) =>
      if c.data.hasValue && data.None? then None
      else Some(ActionRequest(a, NodeIdFromC(c.target), data))
  }

  /** Every request reaches C whole, whatever the filler, unless its data is a `Value` holding a NUL. */
  lemma ActionRequestRoundTrip(r: ActionRequest, filler: CActionData)
    ensures ReadableCActionRequest(ActionRequestToC(r, filler))
    ensures ActionRequestRead(ActionRequestToC(r, filler)) == Some(r) <==> r.data.None? || Representable(r.data.value)
  {
    Enums.ActionOrdinalRoundTrip(r.action);
    NodeIdRoundTrip(r.target);
    if r.data.Some? {
      ActionDataRoundTrip(r.data.value);
    }
  }

  // ---------------------------------------------------------------------
  // Payloads the actions require
  // ---------------------------------------------------------------------

  /**
   * The data each action documents: `CustomAction` needs a custom action
   * id, `ReplaceSelectedText` a value, `ScrollIntoView` optionally a
   * target rectangle, `ScrollToPoint`, `SetScrollOffset` and
   * `SetTextSelection` their own payload, `SetValue` a value or a number.
   * The other actions document no data.
   */
  predicate PayloadOk(a: Enums.Action, data: Option<ActionData>) {
    match a
    case CustomAction => data.Some? && data.value.CustomAction?
    case ReplaceSelectedText => data.Some? && data.value.Value?
    case ScrollIntoView => data.None? || data.value.ScrollTargetRect?
    case ScrollToPoint => data.Some? && data.value.ScrollToPoint?
    case SetScrollOffset => data.Some? && data.value.SetScrollOffset?
    case SetTextSelection => data.Some? && data.value.SetTextSelection?
    case SetValue => data.Some? && (data.value.Value? || data.value.NumericValue?)
    case _ => true
  }

  /** The same requirement as a C callback checks it: on the action ordinal and the data tag. */
  predicate CPayloadOk(action: byte, data: OptStruct<CActionData>) {
    var tag := data.value.Tag();
    if action == 5 then data.hasValue && tag == 0
    else if action == 12 then data.hasValue && tag == 1
    else if action == 19 then !data.hasValue || tag == 3
    else if action == 20 then data.hasValue && tag == 4
    else if action == 21 then data.hasValue && tag == 5
    else if action == 22 then data.hasValue && tag == 6
    else if action == 24 then data.hasValue && (tag == 1 || tag == 2)
    else true
  }

  /** A request meets its action's documented payload exactly when the C struct it becomes does. */
  lemma PayloadOkInC(r: ActionRequest, filler: CActionData)
    ensures PayloadOk(r.action, r.data) <==> CPayloadOk(r.action.Ordinal(), ActionRequestToC(r, filler).data)
  {
  }

  // ---------------------------------------------------------------------
  // The C action handler
  // ---------------------------------------------------------------------

  /** An `accesskit_action_handler_callback`, named by its address. */
  datatype Callback = Callback(address: nat)

  /** `FfiActionHandler`: an optional callback and the opaque `userdata` pointer. */
  datatype ActionHandler = ActionHandler(callback: Option<Callback>, userdata: nat)

  /** One call of a C callback: which function, the request it was passed, and the userdata. */
  datatype Invocation = Invocation(callback: Callback, request: CActionRequest, userdata: nat)

  /** `accesskit_action_handler_new`: the callback and userdata, kept as given. */
  function ActionHandlerNew(callback: Option<Callback>, userdata: nat): (h: ActionHandler)
    ensures h.callback == callback && h.userdata == userdata
  {
    ActionHandler(callback, userdata)
  }

  /**
   * `do_action`: with a callback, converts the request and calls it once
   * with the converted request and the handler's userdata; with none,
   * does nothing.
   */
  function DoAction(h: ActionHandler, r: ActionRequest, filler: CActionData): (calls: seq<Invocation>)
    ensures |calls| <= 1
    ensures |calls| == 1 <==> h.callback.Some?
    ensures forall c :: c in calls ==> c.callback == h.callback.value && c.userdata == h.userdata
    ensures forall c :: c in calls ==> c.request == ActionRequestToC(r, filler)
  {
    match h.callback
    case None => []
    case Some(f) => [Invocation(f, ActionRequestToC(r, filler), h.userdata)]
  }

  /** Whatever the callback reads back from the request it is handed is the request that was made. */
  lemma DoActionDelivers(h: ActionHandler, r: ActionRequest, filler: CActionData)
    requires h.callback.Some?
    requires r.data.None? || Representable(r.data.value)
    ensures ReadableCActionRequest(DoAction(h, r, filler)[0].request)
    ensures ActionRequestRead(DoAction(h, r, filler)[0].request) == Some(r)
  {
    ActionRequestRoundTrip(r, filler);
  }

  // ---------------------------------------------------------------------
  // Dropping the converted data
  // ---------------------------------------------------------------------

  /**
   * `Drop for action_data` as written: a `Value` hands its pointer to
   * `accesskit_string_free`, null or not; no other variant frees
   * anything.
   */
  function DropFreesAsWritten(c: CActionData): (freed: seq<CharPtr>)
    ensures |freed| <= 1
    ensures |freed| == 1 <==> c.CValue?
    ensures c.CValue? ==> freed[0] == c.value
  {
    match c
    case CValue(p) => [p]
    case _ => []
  }

  /** Dropping the conversion of a `Value` holding a NUL frees a null pointer. */
  lemma DropFreesNullAsWritten()
    ensures ActionDataToC(Value([NUL])) == CValue(NullChars)
    ensures NullChars in DropFreesAsWritten(ActionDataToC(Value([NUL])))
  {
  }

  /** The evidently intended drop: free the `value` string only when there is one. */
  function DropFrees(c: CActionData): (freed: seq<CharPtr>)
    ensures |freed| <= 1
    ensures |freed| == 1 <==> c.CValue? && c.value.Chars?
    ensures forall p :: p in freed ==> p.Chars? && p == c.value
  {
    match c
    case CValue(p) => if p.Chars? then [p] else []
    case _ => []
  }

  /**
   * The corrected drop releases exactly the string the conversion
   * allocated, and never a null pointer.
   */
  lemma DropFreesWhatWasAllocated(d: ActionData)
    ensures NullChars !in DropFrees(ActionDataToC(d))
    ensures DropFrees(ActionDataToC(d)) == (if d.Value? && NUL !in d.text then [CStringInto(d.text)] else [])
  {
  }

  /** The two drops agree on every data that converts without a NUL, and only there. */
  lemma DropFreesAgree(d: ActionData)
    ensures DropFrees(ActionDataToC(d)) == DropFreesAsWritten(ActionDataToC(d)) <==> Representable(d)
  {
  }
}

=== FILE: enums.dfy ===
/**
 * The enumerations of the C header. Each crosses the ABI as a `uint8_t`
 * whose value is the variant's position in the declaration, counting from
 * zero.
 */
module Enums {
  import opened Wrappers
  import opened LittleEndian

  /** `accesskit_action` (26 variants). */
  datatype Action =
      Default
    | Focus
    | Blur
    | Collapse
    | Expand
    | CustomAction
    | Decrement
    | Increment
    | HideTooltip
    | ShowTooltip
    | InvalidateTree
    | LoadInlineTextBoxes
    | ReplaceSelectedText
    | ScrollBackward
    | ScrollDown
    | ScrollForward
    | ScrollLeft
    | ScrollRight
    | ScrollUp
    | ScrollIntoView
    | ScrollToPoint
    | SetScrollOffset
    | SetTextSelection
    | SetSequentialFocusNavigationStartingPoint
    | SetValue
    | ShowContextMenu
  {
    /** The `uint8_t` that carries this variant across the ABI. */
    function Ordinal(): byte {
      match this
      case Default => 0
      case Focus => 1
      case Blur => 2
      case Collapse => 3
      case Expand => 4
      case CustomAction => 5
      case Decrement => 6
      case Increment => 7
      case HideTooltip => 8
      case ShowTooltip => 9
      case InvalidateTree => 10
      case LoadInlineTextBoxes => 11
      case ReplaceSelectedText => 12
      case ScrollBackward => 13
      case ScrollDown => 14
      case ScrollForward => 15
      case ScrollLeft => 16
      case ScrollRight => 17
      case ScrollUp => 18
      case ScrollIntoView => 19
      case ScrollToPoint => 20
      case SetScrollOffset => 21
      case SetTextSelection => 22
      case SetSequentialFocusNavigationStartingPoint => 23
      case SetValue => 24
      case ShowContextMenu => 25
    }
  }

  const ACTION_COUNT: nat := 26

  /** The variant a `uint8_t` names; the ordinals at or past ACTION_COUNT name none. */
  function ActionFromOrdinal(b: byte): (r: Option<Action>)
    ensures r.Some? <==> b as nat < ACTION_COUNT
    ensures r.Some? ==> r.value.Ordinal() == b
  {
    if b < 14 then Some(ActionBlock0(b))
    else if b < 26 then Some(ActionBlock1(b))
    else None
  }

  /** The variants with ordinals 0 to 13. */
  function ActionBlock0(b: byte): (r: Action)
    requires 0 <= b < 14
    ensures r.Ordinal() == b
  {
    match b
    case 0 => Action.Default
    case 1 => Action.Focus
    case 2 => Action.Blur
    case 3 => Action.Collapse
    case 4 => Action.Expand
    case 5 => Action.CustomAction
    case 6 => Action.Decrement
    case 7 => Action.Increment
    case 8 => Action.HideTooltip
    case 9 => Action.ShowTooltip
    case 10 => Action.InvalidateTree
    case 11 => Action.LoadInlineTextBoxes
    case 12 => Action.ReplaceSelectedText
    case _ => Action.ScrollBackward
  }

  /** The variants with ordinals 14 to 25. */
  function ActionBlock1(b: byte): (r: Action)
    requires 14 <= b < 26
    ensures r.Ordinal() == b
  {
    match b
    case 14 => Action.ScrollDown
    case 15 => Action.ScrollForward
    case 16 => Action.ScrollLeft
    case 17 => Action.ScrollRight
    case 18 => Action.ScrollUp
    case 19 => Action.ScrollIntoView
    case 20 => Action.ScrollToPoint
    case 21 => Action.SetScrollOffset
    case 22 => Action.SetTextSelection
    case 23 => Action.SetSequentialFocusNavigationStartingPoint
    case 24 => Action.SetValue
    case _ => Action.ShowContextMenu
  }

  /** Every variant survives the trip through its ordinal. */
  lemma ActionOrdinalRoundTrip(v: Action)
    ensures ActionFromOrdinal(v.Ordinal()) == Some(v)
  {
    match v
    case Default =>
    case Focus =>
    case Blur =>
    case Collapse =>
    case Expand =>
    case CustomAction =>
    case Decrement =>
    case Increment =>
    case HideTooltip =>
    case ShowTooltip =>
    case InvalidateTree =>
    case LoadInlineTextBoxes =>
    case ReplaceSelectedText =>
    case ScrollBackward =>
    case ScrollDown =>
    case ScrollForward =>
    case ScrollLeft =>
    case ScrollRight =>
    case ScrollUp =>
    case ScrollIntoView =>
    case ScrollToPoint =>
    case SetScrollOffset =>
    case SetTextSelection =>
    case SetSequentialFocusNavigationStartingPoint =>
    case SetValue =>
    case ShowContextMenu =>
  }

  /** `accesskit_aria_current` (7 variants). */
  datatype AriaCurrent =
      False
    | True
    | Page
    | Step
    | Location
    | Date
    | Time
  {
    /** The `uint8_t` that carries this variant across the ABI. */
    function Ordinal(): byte {
      match this
      case False => 0
      case True => 1
      case Page => 2
      case Step => 3
      case Location => 4
      case Date => 5
      case Time => 6
    }
  }

  const ARIA_CURRENT_COUNT: nat := 7

  /** The variant a `uint8_t` names; the ordinals at or past ARIA_CURRENT_COUNT name none. */
  function AriaCurrentFromOrdinal(b: byte): (r: Option<AriaCurrent>)
    ensures r.Some? <==> b as nat < ARIA_CURRENT_COUNT
    ensures r.Some? ==> r.value.Ordinal() == b
  {
    match b
    case 0 => Some(AriaCurrent.False)
    case 1 => Some(AriaCurrent.True)
    case 2 => Some(AriaCurrent.Page)
    case 3 => Some(AriaCurrent.Step)
    case 4 => Some(AriaCurrent.Location)
    case 5 => Some(AriaCurrent.Date)
    case 6 => Some(AriaCurrent.Time)
    case _ => None
  }

  /** Every variant survives the trip through its ordinal. */
  lemma AriaCurrentOrdinalRoundTrip(v: AriaCurrent)
    ensures AriaCurrentFromOrdinal(v.Ordinal()) == Some(v)
  {
    match v
    case False =>
    case True =>
    case Page =>
    case Step =>
    case Location =>
    case Date =>
    case Time =>
  }

  /** `accesskit_checked_state` (3 variants). */
  datatype CheckedState =
      False
    | True
    | Mixed
  {
    /** The `uint8_t` that carries this variant across the ABI. */
    function Ordinal(): byte {
      match this
      case False => 0
      case True => 1
      case Mixed => 2
    }
  }

  const CHECKED_STATE_COUNT: nat := 3

  /** The variant a `uint8_t` names; the ordinals at or past CHECKED_STATE_COUNT name none. */
  function CheckedStateFromOrdinal(b: byte): (r: Option<CheckedState>)
    ensures r.Some? <==> b as nat < CHECKED_STATE_COUNT
    ensures r.Some? ==> r.value.Ordinal() == b
  {
    match b
    case 0 => Some(CheckedState.False)
    case 1 => Some(CheckedState.True)
    case 2 => Some(CheckedState.Mixed)
    case _ => None
  }

  /** Every variant survives the trip through its ordinal. */
  lemma CheckedStateOrdinalRoundTrip(v: CheckedState)
    ensures CheckedStateFromOrdinal(v.Ordinal()) == Some(v)
  {
    match v
    case False =>
    case True =>
    case Mixed =>
  }

  /** `accesskit_default_action_verb` (9 variants). */
  datatype DefaultActionVerb =
      Click
    | Focus
    | Check
    | Uncheck
    | ClickAncestor
    | Jump
    | Open
    | Press
    | Select
  {
    /** The `uint8_t` that carries this variant across the ABI. */
    function Ordinal(): byte {
      match this
      case Click => 0
      case Focus => 1
      case Check => 2
      case Uncheck => 3
      case ClickAncestor => 4
      case Jump => 5
      case Open => 6
      case Press => 7
      case Select => 8
    }
  }

  const DEFAULT_ACTION_VERB_COUNT: nat := 9

  /** The variant a `uint8_t` names; the ordinals at or past DEFAULT_ACTION_VERB_COUNT name none. */
  function DefaultActionVerbFromOrdinal(b: byte): (r: Option<DefaultActionVerb>)
    ensures r.Some? <==> b as nat < DEFAULT_ACTION_VERB_COUNT
    ensures r.Some? ==> r.value.Ordinal() == b
  {
    match b
    case 0 => Some(DefaultActionVerb.Click)
    case 1 => Some(DefaultActionVerb.Focus)
    case 2 => Some(DefaultActionVerb.Check)
    case 3 => Some(DefaultActionVerb.Uncheck)
    case 4 => Some(DefaultActionVerb.ClickAncestor)
    case 5 => Some(DefaultActionVerb.Jump)
    case 6 => Some(DefaultActionVerb.Open)
    case 7 => Some(DefaultActionVerb.Press)
    case 8 => Some(DefaultActionVerb.Select)
    case _ => None
  }

  /** Every variant survives the trip through its ordinal. */
  lemma DefaultActionVerbOrdinalRoundTrip(v: DefaultActionVerb)
    ensures DefaultActionVerbFromOrdinal(v.Ordinal()) == Some(v)
  {
    match v
    case Click =>
    case Focus =>
    case Check =>
    case Uncheck =>
    case ClickAncestor =>
    case Jump =>
    case Open =>
    case Press =>
    case Select =>
  }

  /** `accesskit_description_from` (7 variants). */
  datatype DescriptionFrom =
      AriaDescription
    | ButtonLabel
    | RelatedElement
    | RubyAnnotation
    | Summary
    | TableCaption
    | Title
  {
    /** The `uint8_t` that carries this variant across the ABI. */
    function Ordinal(): byte {
      match this
      case AriaDescription => 0
      case ButtonLabel => 1
      case RelatedElement => 2
      case RubyAnnotation => 3
      case Summary => 4
      case TableCaption => 5
      case Title => 6
    }
  }

  const DESCRIPTION_FROM_COUNT: nat := 7

  /** The variant a `uint8_t` names; the ordinals at or past DESCRIPTION_FROM_COUNT name none. */
  function DescriptionFromFromOrdinal(b: byte): (r: Option<DescriptionFrom>)
    ensures r.Some? <==> b as nat < DESCRIPTION_FROM_COUNT
    ensures r.Some? ==> r.value.Ordinal() == b
  {
    match b
    case 0 => Some(DescriptionFrom.AriaDescription)
    case 1 => Some(DescriptionFrom.ButtonLabel)
    case 2 => Some(DescriptionFrom.RelatedElement)
    case 3 => Some(DescriptionFrom.RubyAnnotation)
    case 4 => Some(DescriptionFrom.Summary)
    case 5 => Some(DescriptionFrom.TableCaption)
    case 6 => Some(DescriptionFrom.Title)
    case _ => None
  }

  /** Every variant survives the trip through its ordinal. */
  lemma DescriptionFromOrdinalRoundTrip(v: DescriptionFrom)
    ensures DescriptionFromFromOrdinal(v.Ordinal()) == Some(v)
  {
    match v
    case AriaDescription =>
    case ButtonLabel =>
    case RelatedElement =>
    case RubyAnnotation =>
    case Summary =>
    case TableCaption =>
    case Title =>
  }

  /** `accesskit_has_popup` (6 variants). */
  datatype HasPopup =
      True
    | Menu
    | Listbox
    | Tree
    | Grid
    | Dialog
  {
    /** The `uint8_t` that carries this variant across the ABI. */
    function Ordinal(): byte {
      match this
      case True => 0
      case Menu => 1
      case Listbox => 2
      case Tree => 3
      case Grid => 4
      case Dialog => 5
    }
  }

  const HAS_POPUP_COUNT: nat := 6

  /** The variant a `uint8_t` names; the ordinals at or past HAS_POPUP_COUNT name none. */
  function HasPopupFromOrdinal(b: byte): (r: Option<HasPopup>)
    ensures r.Some? <==> b as nat < HAS_POPUP_COUNT
    ensures r.Some? ==> r.value.Ordinal() == b
  {
    match b
    case 0 => Some(HasPopup.True)
    case 1 => Some(HasPopup.Menu)
    case 2 => Some(HasPopup.Listbox)
    case 3 => Some(HasPopup.Tree)
    case 4 => Some(HasPopup.Grid)
    case 5 => Some(HasPopup.Dialog)
    case _ => None
  }

  /** Every variant survives the trip through its ordinal. */
  lemma HasPopupOrdinalRoundTrip(v: HasPopup)
    ensures HasPopupFromOrdinal(v.Ordinal()) == Some(v)
  {
    match v
    case True =>
    case Menu =>
    case Listbox =>
    case Tree =>
    case Grid =>
    case Dialog =>
  }

  /** `accesskit_invalid` (3 variants). */
  datatype Invalid =
      True
    | Grammar
    | Spelling
  {
    /** The `uint8_t` that carries this variant across the ABI. */
    function Ordinal(): byte {
      match this
      case True => 0
      case Grammar => 1
      case Spelling => 2
    }
  }

  const INVALID_COUNT: nat := 3

  /** The variant a `uint8_t` names; the ordinals at or past INVALID_COUNT name none. */
  function InvalidFromOrdinal(b: byte): (r: Option<Invalid>)
    ensures r.Some? <==> b as nat < INVALID_COUNT
    ensures r.Some? ==> r.value.Ordinal() == b
  {
    match b
    case 0 => Some(Invalid.True)
    case 1 => Some(Invalid.Grammar)
    case 2 => Some(Invalid.Spelling)
    case _ => None
  }

  /** Every variant survives the trip through its ordinal. */
  lemma InvalidOrdinalRoundTrip(v: Invalid)
    ensures InvalidFromOrdinal(v.Ordinal()) == Some(v)
  {
    match v
    case True =>
    case Grammar =>
    case Spelling =>
  }

  /** `accesskit_list_style` (6 variants). */
  datatype ListStyle =
      Circle
    | Disc
    | Image
    | Numeric
    | Square
    | Other
  {
    /** The `uint8_t` that carries this variant across the ABI. */
    function Ordinal(): byte {
      match this
      case Circle => 0
      case Disc => 1
      case Image => 2
      case Numeric => 3
      case Square => 4
      case Other => 5
    }
  }

  const LIST_STYLE_COUNT: nat := 6

  /** The variant a `uint8_t` names; the ordinals at or past LIST_STYLE_COUNT name none. */
  function ListStyleFromOrdinal(b: byte): (r: Option<ListStyle>)
    ensures r.Some? <==> b as nat < LIST_STYLE_COUNT
    ensures r.Some? ==> r.value.Ordinal() == b
  {
    match b
    case 0 => Some(ListStyle.Circle)
    case 1 => Some(ListStyle.Disc)
    case 2 => Some(ListStyle.Image)
    case 3 => Some(ListStyle.Numeric)
    case 4 => Some(ListStyle.Square)
    case 5 => Some(ListStyle.Other)
    case _ => None
  }

  /** Every variant survives the trip through its ordinal. */
  lemma ListStyleOrdinalRoundTrip(v: ListStyle)
    ensures ListStyleFromOrdinal(v.Ordinal()) == Some(v)
  {
    match v
    case Circle =>
    case Disc =>
    case Image =>
    case Numeric =>
    case Square =>
    case Other =>
  }

  /** `accesskit_live` (3 variants). */
  datatype Live =
      Off
    | Polite
    | Assertive
  {
    /** The `uint8_t` that carries this variant across the ABI. */
    function Ordinal(): byte {
      match this
      case Off => 0
      case Polite => 1
      case Assertive => 2
    }
  }

  const LIVE_COUNT: nat := 3

  /** The variant a `uint8_t` names; the ordinals at or past LIVE_COUNT name none. */
  function LiveFromOrdinal(b: byte): (r: Option<Live>)
    ensures r.Some? <==> b as nat < LIVE_COUNT
    ensures r.Some? ==> r.value.Ordinal() == b
  {
    match b
    case 0 => Some(Live.Off)
    case 1 => Some(Live.Polite)
    case 2 => Some(Live.Assertive)
    case _ => None
  }

  /** Every variant survives the trip through its ordinal. */
  lemma LiveOrdinalRoundTrip(v: Live)
    ensures LiveFromOrdinal(v.Ordinal()) == Some(v)
  {
    match v
    case Off =>
    case Polite =>
    case Assertive =>
  }

  /** `accesskit_name_from` (8 variants). */
  datatype NameFrom =
      Attribute
    | AttributeExplicitlyEmpty
    | Caption
    | Contents
    | Placeholder
    | RelatedElement
    | Title
    | Value
  {
    /** The `uint8_t` that carries this variant across the ABI. */
    function Ordinal(): byte {
      match this
      case Attribute => 0
      case AttributeExplicitlyEmpty => 1
      case Caption => 2
      case Contents => 3
      case Placeholder => 4
      case RelatedElement => 5
      case Title => 6
      case Value => 7
    }
  }

  const NAME_FROM_COUNT: nat := 8

  /** The variant a `uint8_t` names; the ordinals at or past NAME_FROM_COUNT name none. */
  function NameFromFromOrdinal(b: byte): (r: Option<NameFrom>)
    ensures r.Some? <==> b as nat < NAME_FROM_COUNT
    ensures r.Some? ==> r.value.Ordinal() == b
  {
    match b
    case 0 => Some(NameFrom.Attribute)
    case 1 => Some(NameFrom.AttributeExplicitlyEmpty)
    case 2 => Some(NameFrom.Caption)
    case 3 => Some(NameFrom.Contents)
    case 4 => Some(NameFrom.Placeholder)
    case 5 => Some(NameFrom.RelatedElement)
    case 6 => Some(NameFrom.Title)
    case 7 => Some(NameFrom.Value)
    case _ => None
  }

  /** Every variant survives the trip through its ordinal. */
  lemma NameFromOrdinalRoundTrip(v: NameFrom)
    ensures NameFromFromOrdinal(v.Ordinal()) == Some(v)
  {
    match v
    case Attribute =>
    case AttributeExplicitlyEmpty =>
    case Caption =>
    case Contents =>
    case Placeholder =>
    case RelatedElement =>
    case Title =>
    case Value =>
  }

  /** `accesskit_orientation` (2 variants). */
  datatype Orientation =
      Horizontal
    | Vertical
  {
    /** The `uint8_t` that carries this variant across the ABI. */
    function Ordinal(): byte {
      match this
      case Horizontal => 0
      case Vertical => 1
    }
  }

  const ORIENTATION_COUNT: nat := 2

  /** The variant a `uint8_t` names; the ordinals at or past ORIENTATION_COUNT name none. */
  function OrientationFromOrdinal(b: byte): (r: Option<Orientation>)
    ensures r.Some? <==> b as nat < ORIENTATION_COUNT
    ensures r.Some? ==> r.value.Ordinal() == b
  {
    match b
    case 0 => Some(Orientation.Horizontal)
    case 1 => Some(Orientation.Vertical)
    case _ => None
  }

  /** Every variant survives the trip through its ordinal. */
  lemma OrientationOrdinalRoundTrip(v: Orientation)
    ensures OrientationFromOrdinal(v.Ordinal()) == Some(v)
  {
    match v
    case Horizontal =>
    case Vertical =>
  }

  const ROLE_COUNT: nat := 184

  /**
   * `accesskit_role`, by ordinal: 184 variants, too many to unfold as
   * constructors in a proof, so a role is its declaration position and
   * ROLE_NAMES gives the names in that order.
   */
  newtype Role = x: int | 0 <= x < ROLE_COUNT

  /** The role names in declaration (ordinal) order. */
  const ROLE_NAMES: seq<string> := [
    "Unknown",
    "InlineTextBox",
    "Cell",
    "StaticText",
    "Image",
    "Link",
    "Row",
    "ListItem",
    "ListMarker",
    "TreeItem",
    "ListBoxOption",
    "MenuItem",
    "MenuListOption",
    "Paragraph",
    "GenericContainer",
    "Presentation",
    "CheckBox",
    "RadioButton",
    "TextField",
    "Button",
    "LabelText",
    "Pane",
    "RowHeader",
    "ColumnHeader",
    "Column",
    "RowGroup",
    "List",
    "Table",
    "TableHeaderContainer",
    "LayoutTableCell",
    "LayoutTableRow",
    "LayoutTable",
    "Switch",
    "ToggleButton",
    "Menu",
    "Abbr",
    "Alert",
    "AlertDialog",
    "Application",
    "Article",
    "Audio",
    "Banner",
    "Blockquote",
    "Canvas",
    "Caption",
    "Caret",
    "Client",
    "Code",
    "ColorWell",
    "ComboBoxGrouping",
    "ComboBoxMenuButton",
    "Complementary",
    "Comment",
    "ContentDeletion",
    "ContentInsertion",
    "ContentInfo",
    "Date",
    "DateTime",
    "Definition",
    "DescriptionList",
    "DescriptionListDetail",
    "DescriptionListTerm",
    "Details",
    "Dialog",
    "Directory",
    "DisclosureTriangle",
    "Document",
    "EmbeddedObject",
    "Emphasis",
    "Feed",
    "FigureCaption",
    "Figure",
    "Footer",
    "FooterAsNonLandmark",
    "Form",
    "Grid",
    "Group",
    "Header",
    "HeaderAsNonLandmark",
    "Heading",
    "Iframe",
    "IframePresentational",
    "ImeCandidate",
    "InputTime",
    "Keyboard",
    "Legend",
    "LineBreak",
    "ListBox",
    "Log",
    "Main",
    "Mark",
    "Marquee",
    "Math",
    "MenuBar",
    "MenuItemCheckBox",
    "MenuItemRadio",
    "MenuListPopup",
    "Meter",
    "Navigation",
    "Note",
    "PluginObject",
    "PopupButton",
    "Portal",
    "Pre",
    "ProgressIndicator",
    "RadioGroup",
    "Region",
    "RootWebArea",
    "Ruby",
    "RubyAnnotation",
    "ScrollBar",
    "ScrollView",
    "Search",
    "SearchBox",
    "Section",
    "Slider",
    "SpinButton",
    "Splitter",
    "Status",
    "Strong",
    "Suggestion",
    "SvgRoot",
    "Tab",
    "TabList",
    "TabPanel",
    "Term",
    "TextFieldWithComboBox",
    "Time",
    "Timer",
    "TitleBar",
    "Toolbar",
    "Tooltip",
    "Tree",
    "TreeGrid",
    "Video",
    "WebView",
    "Window",
    "PdfActionableHighlight",
    "PdfRoot",
    "GraphicsDocument",
    "GraphicsObject",
    "GraphicsSymbol",
    "DocAbstract",
    "DocAcknowledgements",
    "DocAfterword",
    "DocAppendix",
    "DocBackLink",
    "DocBiblioEntry",
    "DocBibliography",
    "DocBiblioRef",
    "DocChapter",
    "DocColophon",
    "DocConclusion",
    "DocCover",
    "DocCredit",
    "DocCredits",
    "DocDedication",
    "DocEndnote",
    "DocEndnotes",
    "DocEpigraph",
    "DocEpilogue",
    "DocErrata",
    "DocExample",
    "DocFootnote",
    "DocForeword",
    "DocGlossary",
    "DocGlossRef",
    "DocIndex",
    "DocIntroduction",
    "DocNoteRef",
    "DocNotice",
    "DocPageBreak",
    "DocPageFooter",
    "DocPageHeader",
    "DocPageList",
    "DocPart",
    "DocPreface",
    "DocPrologue",
    "DocPullquote",
    "DocQna",
    "DocSubtitle",
    "DocTip",
    "DocToc",
    "ListGrid"
  ]

  /** The `uint8_t` that carries a role across the ABI. */
  function RoleOrdinal(r: Role): (b: byte)
    ensures b as int == r as int
  {
    r as int as byte
  }

  /** The role a `uint8_t` names; the ordinals at or past ROLE_COUNT name none. */
  function RoleFromOrdinal(b: byte): (r: Option<Role>)
    ensures r.Some? <==> b as nat < ROLE_COUNT
    ensures r.Some? ==> RoleOrdinal(r.value) == b
  {
    if b as nat < ROLE_COUNT then Some(b as int as Role) else None
  }

  /** Every role survives the trip through its ordinal, and every role has a name. */
  lemma RoleOrdinalRoundTrip(r: Role)
    ensures RoleFromOrdinal(RoleOrdinal(r)) == Some(r)
    ensures r as int < |ROLE_NAMES|
  {
  }

  /** `accesskit_sort_direction` (4 variants). */
  datatype SortDirection =
      Unsorted
    | Ascending
    | Descending
    | Other
  {
    /** The `uint8_t` that carries this variant across the ABI. */
    function Ordinal(): byte {
      match this
      case Unsorted => 0
      case Ascending => 1
      case Descending => 2
      case Other => 3
    }
  }

  const SORT_DIRECTION_COUNT: nat := 4

  /** The variant a `uint8_t` names; the ordinals at or past SORT_DIRECTION_COUNT name none. */
  function SortDirectionFromOrdinal(b: byte): (r: Option<SortDirection>)
    ensures r.Some? <==> b as nat < SORT_DIRECTION_COUNT
    ensures r.Some? ==> r.value.Ordinal() == b
  {
    match b
    case 0 => Some(SortDirection.Unsorted)
    case 1 => Some(SortDirection.Ascending)
    case 2 => Some(SortDirection.Descending)
    case 3 => Some(SortDirection.Other)
    case _ => None
  }

  /** Every variant survives the trip through its ordinal. */
  lemma SortDirectionOrdinalRoundTrip(v: SortDirection)
    ensures SortDirectionFromOrdinal(v.Ordinal()) == Some(v)
  {
    match v
    case Unsorted =>
    case Ascending =>
    case Descending =>
    case Other =>
  }

  /** `accesskit_text_align` (4 variants). */
  datatype TextAlign =
      Left
    | Right
    | Center
    | Justify
  {
    /** The `uint8_t` that carries this variant across the ABI. */
    function Ordinal(): byte {
      match this
      case Left => 0
      case Right => 1
      case Center => 2
      case Justify => 3
    }
  }

  const TEXT_ALIGN_COUNT: nat := 4

  /** The variant a `uint8_t` names; the ordinals at or past TEXT_ALIGN_COUNT name none. */
  function TextAlignFromOrdinal(b: byte): (r: Option<TextAlign>)
    ensures r.Some? <==> b as nat < TEXT_ALIGN_COUNT
    ensures r.Some? ==> r.value.Ordinal() == b
  {
    match b
    case 0 => Some(TextAlign.Left)
    case 1 => Some(TextAlign.Right)
    case 2 => Some(TextAlign.Center)
    case 3 => Some(TextAlign.Justify)
    case _ => None
  }

  /** Every variant survives the trip through its ordinal. */
  lemma TextAlignOrdinalRoundTrip(v: TextAlign)
    ensures TextAlignFromOrdinal(v.Ordinal()) == Some(v)
  {
    match v
    case Left =>
    case Right =>
    case Center =>
    case Justify =>
  }

  /** `accesskit_text_decoration` (5 variants). */
  datatype TextDecoration =
      Solid
    | Dotted
    | Dashed
    | Double
    | Wavy
  {
    /** The `uint8_t` that carries this variant across the ABI. */
    function Ordinal(): byte {
      match this
      case Solid => 0
      case Dotted => 1
      case Dashed => 2
      case Double => 3
      case Wavy => 4
    }
  }

  const TEXT_DECORATION_COUNT: nat := 5

  /** The variant a `uint8_t` names; the ordinals at or past TEXT_DECORATION_COUNT name none. */
  function TextDecorationFromOrdinal(b: byte): (r: Option<TextDecoration>)
    ensures r.Some? <==> b as nat < TEXT_DECORATION_COUNT
    ensures r.Some? ==> r.value.Ordinal() == b
  {
    match b
    case 0 => Some(TextDecoration.Solid)
    case 1 => Some(TextDecoration.Dotted)
    case 2 => Some(TextDecoration.Dashed)
    case 3 => Some(TextDecoration.Double)
    case 4 => Some(TextDecoration.Wavy)
    case _ => None
  }

  /** Every variant survives the trip through its ordinal. */
  lemma TextDecorationOrdinalRoundTrip(v: TextDecoration)
    ensures TextDecorationFromOrdinal(v.Ordinal()) == Some(v)
  {
    match v
    case Solid =>
    case Dotted =>
    case Dashed =>
    case Double =>
    case Wavy =>
  }

  /** `accesskit_text_direction` (4 variants). */
  datatype TextDirection =
      LeftToRight
    | RightToLeft
    | TopToBottom
    | BottomToTop
  {
    /** The `uint8_t` that carries this variant across the ABI. */
    function Ordinal(): byte {
      match this
      case LeftToRight => 0
      case RightToLeft => 1
      case TopToBottom => 2
      case BottomToTop => 3
    }
  }

  const TEXT_DIRECTION_COUNT: nat := 4

  /** The variant a `uint8_t` names; the ordinals at or past TEXT_DIRECTION_COUNT name none. */
  function TextDirectionFromOrdinal(b: byte): (r: Option<TextDirection>)
    ensures r.Some? <==> b as nat < TEXT_DIRECTION_COUNT
    ensures r.Some? ==> r.value.Ordinal() == b
  {
    match b
    case 0 => Some(TextDirection.LeftToRight)
    case 1 => Some(TextDirection.RightToLeft)
    case 2 => Some(TextDirection.TopToBottom)
    case 3 => Some(TextDirection.BottomToTop)
    case _ => None
  }

  /** Every variant survives the trip through its ordinal. */
  lemma TextDirectionOrdinalRoundTrip(v: TextDirection)
    ensures TextDirectionFromOrdinal(v.Ordinal()) == Some(v)
  {
    match v
    case LeftToRight =>
    case RightToLeft =>
    case TopToBottom =>
    case BottomToTop =>
  }

  /** `accesskit_vertical_offset` (2 variants). */
  datatype VerticalOffset =
      Subscript
    | Superscript
  {
    /** The `uint8_t` that carries this variant across the ABI. */
    function Ordinal(): byte {
      match this
      case Subscript => 0
      case Superscript => 1
    }
  }

  const VERTICAL_OFFSET_COUNT: nat := 2

  /** The variant a `uint8_t` names; the ordinals at or past VERTICAL_OFFSET_COUNT name none. */
  function VerticalOffsetFromOrdinal(b: byte): (r: Option<VerticalOffset>)
    ensures r.Some? <==> b as nat < VERTICAL_OFFSET_COUNT
    ensures r.Some? ==> r.value.Ordinal() == b
  {
    match b
    case 0 => Some(VerticalOffset.Subscript)
    case 1 => Some(VerticalOffset.Superscript)
    case _ => None
  }

  /** Every variant survives the trip through its ordinal. */
  lemma VerticalOffsetOrdinalRoundTrip(v: VerticalOffset)
    ensures VerticalOffsetFromOrdinal(v.Ordinal()) == Some(v)
  {
    match v
    case Subscript =>
    case Superscript =>
  }

}

=== FILE: ffi_values.dfy ===
/**
 * The value shapes the C binding uses to cross the ABI: tagged optional
 * structs, raw pointers to element runs, length/pointer slice structs and
 * NUL-terminated C strings. Pointers are modelled by what they point at.
 */
module FfiValues {
  import opened Wrappers

  // ---------------------------------------------------------------------
  // `{has_value, value}` structs
  // ---------------------------------------------------------------------

  /**
   * An `accesskit_opt_*` struct. `value` may be read only when `hasValue`
   * holds; otherwise it holds whatever filler the producer left there.
   */
  datatype OptStruct<T> = OptStruct(hasValue: bool, value: T)

  /** Rust `Option<T>` into the C optional struct; `filler` stands for the unread `value` of an absent one. */
  function OptFromOption<T>(o: Option<T>, filler: T): (r: OptStruct<T>)
    ensures r.hasValue <==> o.Some?
    ensures o.Some? ==> r.value == o.value
    ensures o.None? ==> r.value == filler
  {
    match o
    case Some(v) => OptStruct(true, v)
    case None => OptStruct(false, filler)
  }

  /** The reading rule of every optional struct: look at `value` only when `hasValue` is set. */
  function OptToOption<T>(s: OptStruct<T>): (o: Option<T>)
    ensures o.Some? <==> s.hasValue
  {
    if s.hasValue then Some(s.value) else None
  }

  /**
   * Writing an option into an optional struct and reading it back loses
   * nothing, whatever the filler: an absent value never reads as present,
   * even when the filler equals some value a caller might mean.
   */
  lemma OptRoundTrip<T>(o: Option<T>, filler: T)
    ensures OptToOption(OptFromOption(o, filler)) == o
    ensures OptFromOption(o, filler).hasValue <==> o.Some?
  {
  }

  // ---------------------------------------------------------------------
  // Raw pointers, slices and optional slices
  // ---------------------------------------------------------------------

  /** A `*const T`: null, or the run of elements starting at the address. */
  datatype Ptr<T> = Null | Region(elems: seq<T>)

  /**
   * What `slice::from_raw_parts(p, n)` demands: a non-null pointer to at
   * least n readable elements (non-null even when n is zero).
   */
  predicate RawPartsReadable<T>(p: Ptr<T>, n: nat) {
    p.Region? && n <= |p.elems|
  }

  /** The n elements `slice::from_raw_parts(p, n)` reads. */
  function RawParts<T>(p: Ptr<T>, n: nat): (xs: seq<T>)
    requires RawPartsReadable(p, n)
    ensures |xs| == n
    ensures forall i :: 0 <= i < n ==> xs[i] == p.elems[i]
  {
    p.elems[..n]
  }

  /** A `slice_struct!` or `array_struct!` value: `{length, values}`. */
  datatype SliceStruct<T> = SliceStruct(length: nat, values: Ptr<T>)

  /** `From<&[T]>` of `slice_struct!`: the length and a pointer to the slice's own elements. */
  function SliceFrom<T>(xs: seq<T>): (s: SliceStruct<T>)
    ensures s.length == |xs|
    ensures RawPartsReadable(s.values, s.length)
  {
    SliceStruct(|xs|, Region(xs))
  }

  /** `From<slice_struct> for Vec<T>`: the `length` elements behind `values`. */
  function SliceToVec<T>(s: SliceStruct<T>): (xs: seq<T>)
    requires RawPartsReadable(s.values, s.length)
    ensures |xs| == s.length
    ensures forall i :: 0 <= i < s.length ==> xs[i] == s.values.elems[i]
  {
    RawParts(s.values, s.length)
  }

  /** The default slice struct: empty, with a null pointer. */
  function EmptySlice<T>(): (s: SliceStruct<T>)
    ensures s.length == 0 && s.values.Null?
  {
    SliceStruct(0, Null)
  }

  /** A slice handed to C and read back is the same element sequence. */
  lemma {:induction false} SliceRoundTrip<T>(xs: seq<T>)
    ensures SliceToVec(SliceFrom(xs)) == xs
  {
    assert xs[..|xs|] == xs;
  }

  /** A slice struct C built by hand, converted to a `Vec` and back, reads the same. */
  lemma {:induction false} SliceFromVecRoundTrip<T>(s: SliceStruct<T>)
    requires RawPartsReadable(s.values, s.length)
    ensures SliceFrom(SliceToVec(s)).length == s.length
    ensures SliceToVec(SliceFrom(SliceToVec(s))) == SliceToVec(s)
  {
    SliceRoundTrip(SliceToVec(s));
  }

  /** An `opt_slice_struct!` value: `{has_value, length, values}`. */
  datatype OptSliceStruct<T> = OptSliceStruct(hasValue: bool, length: nat, values: Ptr<T>)

  /** `From<Option<&[T]>>` of `opt_slice_struct!`. */
  function OptSliceFrom<T>(o: Option<seq<T>>): (s: OptSliceStruct<T>)
    ensures s.hasValue <==> o.Some?
    ensures o.None? ==> s.length == 0 && s.values.Null?
    ensures o.Some? ==> s.length == |o.value| && RawPartsReadable(s.values, s.length)
  {
    match o
    case Some(xs) => OptSliceStruct(true, |xs|, Region(xs))
    case None => OptSliceStruct(false, 0, Null)
  }

  /** How C reads an optional slice: nothing unless `has_value`, else `length` elements. */
  function OptSliceRead<T>(s: OptSliceStruct<T>): (o: Option<seq<T>>)
    requires s.hasValue ==> RawPartsReadable(s.values, s.length)
    ensures o.Some? <==> s.hasValue
    ensures o.Some? ==> |o.value| == s.length
  {
    if s.hasValue then Some(RawParts(s.values, s.length)) else None
  }

  /** An optional slice read back through its C struct is the same option, an empty slice staying present. */
  lemma {:induction false} OptSliceRoundTrip<T>(o: Option<seq<T>>)
    ensures OptSliceRead(OptSliceFrom(o)) == o
  {
    if o.Some? {
      assert o.value[..|o.value|] == o.value;
    }
  }

  // ---------------------------------------------------------------------
  // C strings
  // ---------------------------------------------------------------------

  const NUL: char := '\0'

  /** A `char *`: null, or the characters from the address on. */
  datatype CharPtr = NullChars | Chars(buffer: seq<char>)

  /** The pointer can be read by `CStr::from_ptr`: non-null with a terminator somewhere. */
  predicate Terminated(p: CharPtr) {
    p.Chars? && NUL in p.buffer
  }

  /** Index of the first NUL in a buffer that holds one. */
  function FirstNul(b: seq<char>): (i: nat)
    requires NUL in b
    ensures i < |b| && b[i] == NUL
    ensures forall j :: 0 <= j < i ==> b[j] != NUL
  {
    if b[0] == NUL then 0 else 1 + FirstNul(b[1..])
  }

  /** `CStr::from_ptr`: the characters before the first NUL. */
  function ReadCStr(p: CharPtr): (s: string)
    requires Terminated(p)
    ensures NUL !in s
    ensures s + [NUL] <= p.buffer
  {
    var i := FirstNul(p.buffer);
    assert p.buffer[..i] + [NUL] == p.buffer[..i + 1];
    p.buffer[..i]
  }

  /** `CString::new(s).into_raw()`, with the null pointer for the `Err` case. */
  function CStringInto(s: string): (p: CharPtr)
    ensures p.NullChars? <==> NUL in s
    ensures p.Chars? ==> Terminated(p) && ReadCStr(p) == s
  {
    if NUL in s then NullChars
    else
      var p := Chars(s + [NUL]);
      assert FirstNul(p.buffer) == |s| by {
        FirstNulAfter(s);
      }
      assert p.buffer[..|s|] == s;
      p
  }

  lemma {:induction false} FirstNulAfter(s: string)
    requires NUL !in s
    ensures FirstNul(s + [NUL]) == |s|
  {
    if |s| > 0 {
      assert (s + [NUL])[1..] == s[1..] + [NUL];
      FirstNulAfter(s[1..]);
    }
  }

  /**
   * The string getters (`string_property_methods!`): an absent property
   * is a null pointer, and so is a present one that cannot become a C
   * string because it holds a NUL; otherwise a fresh C string whose
   * contents are exactly the stored text.
   */
  function StringGetter(v: Option<string>): (p: CharPtr)
    ensures p.NullChars? <==> v.None? || NUL in v.value
    ensures p.Chars? ==> Terminated(p) && ReadCStr(p) == v.value
  {
    match v
    case Some(s) => CStringInto(s)
    case None => NullChars
  }

  /** The string setters: the text before the caller's terminator (`CStr::from_ptr`). */
  function StringSetterArg(p: CharPtr): (s: string)
    requires Terminated(p)
    ensures NUL !in s
    ensures s + [NUL] <= p.buffer
  {
    ReadCStr(p)
  }

  /** Text set from C always comes back from the getter as a non-null C string with the same contents. */
  lemma SetThenGet(p: CharPtr)
    requires Terminated(p)
    ensures StringGetter(Some(StringSetterArg(p))).Chars?
    ensures ReadCStr(StringGetter(Some(StringSetterArg(p)))) == ReadCStr(p)
  {
  }
}

=== FILE: handles.dfy ===
/**
 * Ownership of the opaque handles C holds: node builders, nodes, action
 * handlers and queued events. Each is a Rust `Box` turned into a raw
 * pointer by `BoxCastPtr::to_mut_ptr` and taken back by
 * `BoxCastPtr::to_box`; the boxes currently owned by C are a map from
 * address to value. The allocator's choice of address is a parameter.
 */
module Handles {
  import opened Wrappers
  import opened Enums
  import opened Nodes
  import ActionRequests

  /** A raw pointer; 0 is null. */
  type Address = nat

  const NULL: Address := 0

  /** A non-null pointer: where a box lives. */
  type BoxAddress = a: Address | a != NULL witness 1

  /** The boxes of one kind that C owns, by address. */
  datatype Boxes<T> = Boxes(live: map<BoxAddress, T>)

  /** What `to_box` may be given: null, or a box C still owns. Anything else is undefined behaviour. */
  predicate Acceptable<T>(h: Boxes<T>, p: Address) {
    p == NULL || p in h.live
  }

  /** An address the allocator may hand out next: non-null and not in use. */
  predicate Unused<T>(h: Boxes<T>, a: Address) {
    a != NULL && a !in h.live
  }

  /** `BoxCastPtr::to_mut_ptr`: the value is boxed at an unused address and C owns it. */
  function ToMutPtr<T>(h: Boxes<T>, x: T, addr: Address): (r: (Boxes<T>, Address))
    requires Unused(h, addr)
    ensures r.1 != NULL && r.1 in r.0.live && r.0.live[r.1] == x
    ensures r.0.live.Keys == h.live.Keys + {r.1}
    ensures forall a :: a in h.live ==> r.0.live[a] == h.live[a]
  {
    (Boxes(h.live[addr := x]), addr)
  }

  /**
   * `BoxCastPtr::to_box`: null yields nothing and changes nothing; a live
   * box is handed back to Rust and C no longer owns it.
   */
  function ToBox<T>(h: Boxes<T>, p: Address): (r: (Option<T>, Boxes<T>))
    requires Acceptable(h, p)
    ensures r.0.Some? <==> p != NULL
    ensures p == NULL ==> r.1 == h
    ensures p != NULL ==> r.0.value == h.live[p] && r.1.live.Keys == h.live.Keys - {p}
    ensures forall a :: a in r.1.live ==> a in h.live && r.1.live[a] == h.live[a]
  {
    if p == NULL then (None, h) else (Some(h.live[p]), Boxes(h.live - {p}))
  }

  /** Taking back a box just handed out returns its value and leaves the other boxes as they were. */
  lemma BoxRoundTrip<T>(h: Boxes<T>, x: T, addr: Address)
    requires Unused(h, addr)
    ensures ToBox(ToMutPtr(h, x, addr).0, addr) == (Some(x), h)
  {
    assert h.live[addr := x] - {addr} == h.live;
  }

  /** A box taken back cannot be taken back again: a second free of the same pointer is undefined. */
  lemma NoDoubleFree<T>(h: Boxes<T>, p: Address)
    requires p != NULL && p in h.live
    ensures !Acceptable(ToBox(h, p).1, p)
  {
  }

  // ---------------------------------------------------------------------
  // Node builders and nodes
  // ---------------------------------------------------------------------

  /** `accesskit_node_builder_new`: a new builder for the role, owned by C; no other builder changes. */
  function BuilderNew(builders: Boxes<NodeBuilder>, role: Role, addr: Address): (r: (Boxes<NodeBuilder>, Address))
    requires Unused(builders, addr)
    ensures r.1 != NULL && r.1 !in builders.live
    ensures r.0.live.Keys == builders.live.Keys + {r.1}
    ensures r.0.live[r.1] == NewBuilder(role)
    ensures forall a :: a in builders.live ==> r.0.live[a] == builders.live[a]
  {
    ToMutPtr(builders, NewBuilder(role), addr)
  }

  /**
   * A builder mutator, `accesskit_node_builder_set_role` or any other
   * setter, pusher or clearer: the builder is borrowed, updated in place,
   * and stays owned by C. A null builder is ignored (`try_mut_from_ptr!`
   * returns early).
   */
  function BuilderUpdate(builders: Boxes<NodeBuilder>, p: Address, call: BuilderCall): (r: Boxes<NodeBuilder>)
    requires Acceptable(builders, p)
    ensures p == NULL ==> r == builders
    ensures r.live.Keys == builders.live.Keys
    ensures p != NULL ==> r.live[p] == Apply(builders.live[p], call)
    ensures forall a :: a in builders.live && a != p ==> r.live[a] == builders.live[a]
  {
    if p == NULL then builders else Boxes(builders.live[p := Apply(builders.live[p], call)])
  }

  /**
   * `accesskit_node_builder_build`: takes the builder back, then borrows
   * the class set and hands the built node to C. A null builder yields a
   * null node and changes nothing; a null class set yields a null node
   * too, but only after the builder has been taken back, so the builder
   * is freed and no node is made. The class set only interns the node's
   * class, which this model does not represent.
   */
  function BuilderBuild(builders: Boxes<NodeBuilder>, nodes: Boxes<Node>, p: Address, classes: Address, addr: Address)
    : (r: (Boxes<NodeBuilder>, Boxes<Node>, Address))
    requires Acceptable(builders, p) && Unused(nodes, addr)
    ensures p == NULL ==> r == (builders, nodes, NULL)
    ensures r.0.live.Keys == builders.live.Keys - {p}
    ensures forall a :: a in r.0.live ==> r.0.live[a] == builders.live[a]
    ensures classes == NULL ==> r.1 == nodes && r.2 == NULL
    ensures p != NULL && classes != NULL ==>
              && r.2 != NULL && r.2 !in nodes.live
              && r.1.live.Keys == nodes.live.Keys + {r.2}
              && r.1.live[r.2] == Build(builders.live[p])
              && (forall a :: a in nodes.live ==> r.1.live[a] == nodes.live[a])
  {
    if p == NULL then (builders, nodes, NULL)
    else
      var (b, rest) := ToBox(builders, p);
      if classes == NULL then (rest, nodes, NULL)
      else
        var (nodes', q) := ToMutPtr(nodes, Build(b.value), addr);
        (rest, nodes', q)
  }

  /**
   * `accesskit_node_builder_free`, `accesskit_node_free` and
   * `accesskit_action_handler_free`: the box is taken back and dropped;
   * null is ignored.
   */
  function Free<T>(h: Boxes<T>, p: Address): (r: Boxes<T>)
    requires Acceptable(h, p)
    ensures r.live.Keys == h.live.Keys - {p}
    ensures forall a :: a in r.live ==> r.live[a] == h.live[a]
  {
    ToBox(h, p).1
  }

  /**
   * A builder made, given mutator calls and built with a class set yields
   * a node whose role is the one the last `set_role` named (the role it
   * was made with when there is none) and whose properties are the other
   * calls in order, and leaves no builder behind: `build` and `free` are
   * alternatives, never both.
   */
  lemma BuilderLifecycle(
    builders: Boxes<NodeBuilder>, nodes: Boxes<Node>, role: Role, calls: seq<BuilderCall>,
    classes: Address, a: Address, n: Address)
    requires Unused(builders, a) && Unused(nodes, n) && classes != NULL
    ensures var (bs, p) := BuilderNew(builders, role, a);
            var bs' := UpdateAll(bs, p, calls);
            var (bs'', ns, q) := BuilderBuild(bs', nodes, p, classes, n);
            && bs'' == builders
            && q in ns.live && ns.live[q] == Node(LastRole(role, calls), PropertyCalls(calls))
            && !Acceptable(bs'', p)
  {
    var (bs, p) := BuilderNew(builders, role, a);
    UpdateAllKeeps(bs, p, calls);
    BuildReflectsCalls(NewBuilder(role), calls);
    var bs' := UpdateAll(bs, p, calls);
    assert bs'.live == builders.live[a := ApplyAll(NewBuilder(role), calls)];
    assert bs'.live - {a} == builders.live;
  }

  /**
   * Building without a class set loses the builder: afterwards it is
   * gone, exactly as if it had been freed, and no node exists for it.
   */
  lemma BuildWithoutClassesFrees(builders: Boxes<NodeBuilder>, nodes: Boxes<Node>, p: Address, n: Address)
    requires Acceptable(builders, p) && Unused(nodes, n)
    ensures var (bs, ns, q) := BuilderBuild(builders, nodes, p, NULL, n);
            && bs == Free(builders, p)
            && ns == nodes && q == NULL
  {
  }

  /**
   * The other way out: a builder abandoned with `free`, after any
   * mutator calls, leaves the builder boxes as before and no node made.
   */
  lemma BuilderAbandoned(builders: Boxes<NodeBuilder>, role: Role, calls: seq<BuilderCall>, a: Address)
    requires Unused(builders, a)
    ensures var (bs, p) := BuilderNew(builders, role, a);
            && Free(UpdateAll(bs, p, calls), p) == builders
            && !Acceptable(Free(UpdateAll(bs, p, calls), p), p)
  {
    var (bs, p) := BuilderNew(builders, role, a);
    UpdateAllKeeps(bs, p, calls);
    var bs' := UpdateAll(bs, p, calls);
    assert bs'.live - {a} == builders.live;
  }

  /** A run of mutator calls on one builder. */
  function UpdateAll(builders: Boxes<NodeBuilder>, p: Address, calls: seq<BuilderCall>): (r: Boxes<NodeBuilder>)
    requires Acceptable(builders, p)
    ensures r.live.Keys == builders.live.Keys
    decreases |calls|
  {
    if |calls| == 0 then builders else UpdateAll(BuilderUpdate(builders, p, calls[0]), p, calls[1..])
  }

  /**
   * The mutators, `set_role` among them, reach the builder in order and
   * touch no other box; on a null builder they all do nothing.
   */
  lemma {:induction false} UpdateAllKeeps(builders: Boxes<NodeBuilder>, p: Address, calls: seq<BuilderCall>)
    requires Acceptable(builders, p)
    ensures p == NULL ==> UpdateAll(builders, p, calls) == builders
    ensures p != NULL ==> UpdateAll(builders, p, calls).live == builders.live[p := ApplyAll(builders.live[p], calls)]
    decreases |calls|
  {
    if |calls| > 0 {
      var step := BuilderUpdate(builders, p, calls[0]);
      UpdateAllKeeps(step, p, calls[1..]);
      if p != NULL {
        assert step.live[p := ApplyAll(step.live[p], calls[1..])]
            == builders.live[p := ApplyAll(builders.live[p], calls)];
      }
    }
  }

  // ---------------------------------------------------------------------
  // Action handlers
  // ---------------------------------------------------------------------

  /** `accesskit_action_handler_new`: the callback and userdata, boxed for C. */
  function HandlerNew(
    handlers: Boxes<ActionRequests.ActionHandler>, callback: Option<ActionRequests.Callback>, userdata: nat, addr: Address)
    : (r: (Boxes<ActionRequests.ActionHandler>, Address))
    requires Unused(handlers, addr)
    ensures r.1 != NULL && r.1 !in handlers.live
    ensures r.0.live.Keys == handlers.live.Keys + {r.1}
    ensures r.0.live[r.1] == ActionRequests.ActionHandlerNew(callback, userdata)
    ensures forall a :: a in handlers.live ==> r.0.live[a] == handlers.live[a]
  {
    ToMutPtr(handlers, ActionRequests.ActionHandlerNew(callback, userdata), addr)
  }

  /** A handler freed without being handed on leaves the handler boxes as before, and its pointer dead. */
  lemma HandlerNewThenFree(
    handlers: Boxes<ActionRequests.ActionHandler>, callback: Option<ActionRequests.Callback>, userdata: nat, addr: Address)
    requires Unused(handlers, addr)
    ensures var (hs, p) := HandlerNew(handlers, callback, userdata, addr);
            && Free(hs, p) == handlers
            && !Acceptable(Free(hs, p), p)
  {
    BoxRoundTrip(handlers, ActionRequests.ActionHandlerNew(callback, userdata), addr);
  }

  // ---------------------------------------------------------------------
  // Queued events
  // ---------------------------------------------------------------------

  /** The events an adapter update queued, opaque here. */
  datatype QueuedEvents = QueuedEvents(events: seq<nat>)

  /**
   * `accesskit_windows_queued_events_raise` and
   * `accesskit_macos_queued_events_raise`: a null pointer raises nothing
   * and changes nothing; otherwise the events are raised, in order, and
   * their memory is freed.
   */
  function QueuedEventsRaise(queues: Boxes<QueuedEvents>, p: Address): (r: (seq<nat>, Boxes<QueuedEvents>))
    requires Acceptable(queues, p)
    ensures p == NULL ==> r == ([], queues)
    ensures p != NULL ==> r.0 == queues.live[p].events && r.1.live.Keys == queues.live.Keys - {p}
    ensures forall a :: a in r.1.live ==> r.1.live[a] == queues.live[a]
  {
    match ToBox(queues, p).0
    case None => ([], queues)
    case Some(q) => (q.events, ToBox(queues, p).1)
  }

  /**
   * Queued events handed out by an update are raised exactly once: the
   * first raise delivers them all and a second raise of the same
   * pointer is undefined.
   */
  lemma RaiseOnce(queues: Boxes<QueuedEvents>, q: QueuedEvents, addr: Address)
    requires Unused(queues, addr)
    ensures var (qs, p) := ToMutPtr(queues, q, addr);
            && QueuedEventsRaise(qs, p) == (q.events, queues)
            && !Acceptable(QueuedEventsRaise(qs, p).1, p)
  {
    BoxRoundTrip(queues, q, addr);
  }
}

=== FILE: little_endian.dfy ===
/**
 * Unsigned integers as base-256 digit strings, least significant digit
 * first: the byte order of Rust's `to_le_bytes` / `from_le_bytes`.
 */
module LittleEndian {

  newtype byte = x: int | 0 <= x < 256

  /** 256 raised to the power k. */
  function Pow256(k: nat): (p: nat)
    ensures p >= 1
    ensures k > 0 ==> p >= 256
  {
    if k == 0 then 1 else 256 * Pow256(k - 1)
  }

  /** The k low-order base-256 digits of n, least significant first. */
  function ToLe(n: nat, k: nat): (bs: seq<byte>)
    ensures |bs| == k
  {
    if k == 0 then [] else [(n % 256) as byte] + ToLe(n / 256, k - 1)
  }

  /** The number whose base-256 digits, least significant first, are bs. */
  function FromLe(bs: seq<byte>): (n: nat)
    ensures n < Pow256(|bs|)
  {
    if |bs| == 0 then 0 else bs[0] as nat + 256 * FromLe(bs[1..])
  }

  predicate AllZero(bs: seq<byte>) {
    forall i :: 0 <= i < |bs| ==> bs[i] == 0
  }

  /** Encoding a number that fits in k digits and decoding it gives it back. */
  lemma {:induction false} FromLeToLe(n: nat, k: nat)
    requires n < Pow256(k)
    ensures FromLe(ToLe(n, k)) == n
  {
    if k > 0 {
      FromLeToLe(n / 256, k - 1);
      assert ToLe(n, k)[1..] == ToLe(n / 256, k - 1);
    }
  }

  /** Decoding k digits and encoding the result in k digits gives the digits back. */
  lemma {:induction false} ToLeFromLe(bs: seq<byte>)
    ensures ToLe(FromLe(bs), |bs|) == bs
  {
    if |bs| > 0 {
      var n := FromLe(bs);
      assert n % 256 == bs[0] as nat && n / 256 == FromLe(bs[1..]);
      ToLeFromLe(bs[1..]);
      assert ToLe(n, |bs|) == [bs[0]] + bs[1..];
    }
  }

  /** A digit string denotes zero exactly when every digit is zero. */
  lemma {:induction false} FromLeZero(bs: seq<byte>)
    ensures FromLe(bs) == 0 <==> AllZero(bs)
  {
    if |bs| > 0 {
      FromLeZero(bs[1..]);
      if FromLe(bs) == 0 {
        assert bs[0] == 0 && FromLe(bs[1..]) == 0;
        forall i | 0 <= i < |bs| ensures bs[i] == 0 {
          if i > 0 { assert bs[i] == bs[1..][i - 1]; }
        }
      }
      if AllZero(bs) {
        assert AllZero(bs[1..]) by {
          forall i | 0 <= i < |bs| - 1 ensures bs[1..][i] == 0 {
            assert bs[1..][i] == bs[i + 1];
          }
        }
      }
    }
  }

  /** A number below 256^j has only zero digits from position j on. */
  lemma {:induction false} ToLeHighDigitsZero(n: nat, k: nat, j: nat)
    requires j <= k && n < Pow256(j)
    ensures AllZero(ToLe(n, k)[j..])
  {
    if j == 0 {
      assert n == 0;
      ZeroEncodesToZeros(k);
    } else {
      ToLeHighDigitsZero(n / 256, k - 1, j - 1);
      assert ToLe(n, k)[j..] == ToLe(n / 256, k - 1)[j - 1..];
    }
  }

  /** Zero encodes as all-zero digits. */
  lemma {:induction false} ZeroEncodesToZeros(k: nat)
    ensures AllZero(ToLe(0, k))
  {
    if k > 0 {
      ZeroEncodesToZeros(k - 1);
      assert ToLe(0, k) == [0] + ToLe(0, k - 1);
    }
  }

  /** Digit i of the encoding is the i-th base-256 digit of n. */
  lemma {:induction false} ToLeDigit(n: nat, k: nat, i: nat)
    requires i < k
    ensures ToLe(n, k)[i] as nat == (n / Pow256(i)) % 256
  {
    if i > 0 {
      ToLeDigit(n / 256, k - 1, i - 1);
      DivDiv(n, 256, Pow256(i - 1));
    }
  }

  lemma DivDiv(n: nat, a: nat, b: nat)
    requires a > 0 && b > 0
    ensures n / a / b == n / (a * b)
  {
    var q1, r1 := n / a, n % a;
    var q2, r2 := q1 / b, q1 % b;
    RemainderBound(r1, r2, a, b);
    Regroup(q2, r2, a, b, r1);
    DivUnique(n, a * b, q2, r2 * a + r1);
  }

  lemma RemainderBound(r1: nat, r2: nat, a: nat, b: nat)
    requires r1 < a && r2 < b
    ensures r2 * a + r1 < a * b
  {
    MulLe(r2, b - 1, a);
    assert (b - 1) * a == b * a - a;
  }

  lemma Regroup(q: nat, r: nat, a: nat, b: nat, r1: nat)
    ensures (q * b + r) * a + r1 == q * (a * b) + (r * a + r1)
  {
    assert (q * b + r) * a == q * b * a + r * a;
    assert q * b * a == q * (a * b);
  }

  lemma MulLe(x: nat, y: nat, a: nat)
    requires x <= y
    ensures x * a <= y * a
  {
  }

  lemma DivUnique(n: nat, d: nat, q: nat, r: nat)
    requires d > 0 && r < d && n == q * d + r
    ensures n / d == q
  {
    var q', r' := n / d, n % d;
    assert q' * d + r' == q * d + r;
    assert q' * d < (q + 1) * d;
    MulLtCancel(q', q + 1, d);
    assert q * d < (q' + 1) * d;
    MulLtCancel(q, q' + 1, d);
  }

  lemma MulLtCancel(x: nat, y: nat, d: nat)
    requires x * d < y * d
    ensures x < y
  {
    if y <= x {
      MulLe(y, x, d);
    }
  }
}

=== FILE: node_ids.dfy ===
/**
 * Node ids across the ABI. On the Rust side a `NodeId` wraps a non-zero
 * `u128`; in C an `accesskit_node_id` is 16 bytes holding that number in
 * little-endian order.
 */
module NodeIds {
  import opened Wrappers
  import opened LittleEndian
  import opened FfiValues

  const ID_BYTES: nat := 16

  /** `NodeId(NonZeroU128)`. */
  type NodeId = n: nat | 0 < n < Pow256(ID_BYTES) witness 1

  /** `u64`, the argument of `accesskit_node_id_new`. */
  type U64 = n: nat | n < Pow256(8)

  type Bytes16 = bs: seq<byte> | |bs| == ID_BYTES witness [0, 0, 0, 0, 0, 0, 0, 0, 0, 0, 0, 0, 0, 0, 0, 0]

  /** `accesskit_node_id`: `uint8_t _0[16]`. */
  datatype CNodeId = CNodeId(bytes: Bytes16)

  /** The header's demand on a hand-filled id: not only zeros. */
  predicate ValidCNodeId(c: CNodeId) {
    !AllZero(c.bytes)
  }

  /** `From<NodeId> for node_id`: the little-endian bytes of the id. */
  function NodeIdToC(id: NodeId): (c: CNodeId)
    ensures ValidCNodeId(c)
    ensures forall i :: 0 <= i < ID_BYTES ==> c.bytes[i] as nat == (id / Pow256(i)) % 256
  {
    var bs := ToLe(id, ID_BYTES);
    FromLeToLe(id, ID_BYTES);
    FromLeZero(bs);
    forall i | 0 <= i < ID_BYTES
      ensures bs[i] as nat == (id / Pow256(i)) % 256
    {
      ToLeDigit(id, ID_BYTES, i);
    }
    CNodeId(bs)
  }

  /**
   * `From<node_id> for NodeId`. It uses `NonZeroU128::new_unchecked`, so
   * an all-zero id is outside its domain.
   */
  function NodeIdFromC(c: CNodeId): (id: NodeId)
    requires ValidCNodeId(c)
    ensures id == FromLe(c.bytes)
  {
    FromLeZero(c.bytes);
    FromLe(c.bytes)
  }

  /** An id converted to C and back is the same id. */
  lemma NodeIdRoundTrip(id: NodeId)
    ensures NodeIdFromC(NodeIdToC(id)) == id
  {
    FromLeToLe(id, ID_BYTES);
  }

  /** Valid C bytes converted to an id and back are the same bytes. */
  lemma CNodeIdRoundTrip(c: CNodeId)
    requires ValidCNodeId(c)
    ensures NodeIdToC(NodeIdFromC(c)) == c
  {
    ToLeFromLe(c.bytes);
  }

  /** Two ids are equal exactly when their C bytes are equal. */
  lemma NodeIdToCInjective(a: NodeId, b: NodeId)
    ensures NodeIdToC(a) == NodeIdToC(b) <==> a == b
  {
    if NodeIdToC(a) == NodeIdToC(b) {
      NodeIdRoundTrip(a);
      NodeIdRoundTrip(b);
    }
  }

  /** The filler left in an absent `accesskit_opt_node_id`. */
  const UNSET_NODE_ID: CNodeId := CNodeId([0, 0, 0, 0, 0, 0, 0, 0, 0, 0, 0, 0, 0, 0, 0, 0])

  /** `Option<NodeId>` into `accesskit_opt_node_id`. */
  function OptNodeIdToC(o: Option<NodeId>): (s: OptStruct<CNodeId>)
    ensures s.hasValue <==> o.Some?
    ensures s.hasValue ==> ValidCNodeId(s.value) && NodeIdFromC(s.value) == o.value
  {
    match o
    case Some(id) =>
      NodeIdRoundTrip(id);
      OptStruct(true, NodeIdToC(id))
    case None => OptStruct(false, UNSET_NODE_ID)
  }

  /** An optional id whose `value` may be read is a valid id. */
  predicate ValidOptCNodeId(s: OptStruct<CNodeId>) {
    s.hasValue ==> ValidCNodeId(s.value)
  }

  /** `accesskit_opt_node_id` into `Option<NodeId>`; an absent one stays absent whatever its `value`. */
  function OptNodeIdFromC(s: OptStruct<CNodeId>): (o: Option<NodeId>)
    requires ValidOptCNodeId(s)
    ensures o.Some? <==> s.hasValue
    ensures o.Some? ==> NodeIdToC(o.value) == s.value
  {
    if s.hasValue then
      CNodeIdRoundTrip(s.value);
      Some(NodeIdFromC(s.value))
    else None
  }

  /** Optional ids round-trip through the C struct. */
  lemma OptNodeIdRoundTrip(o: Option<NodeId>)
    ensures OptNodeIdFromC(OptNodeIdToC(o)) == o
  {
    if o.Some? {
      NodeIdRoundTrip(o.value);
    }
  }

  /**
   * `accesskit_node_id_new`: zero has no id; any other `u64` becomes the
   * id with that value, whose upper eight bytes are zero.
   */
  function NodeIdNew(n: U64): (r: OptStruct<CNodeId>)
    ensures r.hasValue <==> n != 0
    ensures r.hasValue ==> ValidCNodeId(r.value) && NodeIdFromC(r.value) == n
    ensures r.hasValue ==> AllZero(r.value.bytes[8..])
  {
    if n == 0 then OptNodeIdToC(None)
    else
      ToLeHighDigitsZero(n, ID_BYTES, 8);
      OptNodeIdToC(Some(n))
  }

  /** An id built from 42 survives the bytes round trip and is never the all-zero id. */
  lemma NodeId42()
    ensures NodeIdNew(42).hasValue
    ensures NodeIdToC(NodeIdFromC(NodeIdNew(42).value)) == NodeIdNew(42).value
    ensures NodeIdNew(42).value != UNSET_NODE_ID
  {
    CNodeIdRoundTrip(NodeIdNew(42).value);
  }
}

=== FILE: nodes.dfy ===
/**
 * Nodes and node builders, kept abstract. Their storage and the class
 * interning of `NodeClassSet` belong to the `accesskit` crate; what the C
 * layer does with them is hand each mutator call through. A builder is
 * therefore its role plus the log of the other property calls made on it.
 */
module Nodes {
  import opened Enums

  /** One delegated setter, pusher or clearer call other than `set_role`, named by its C entry point. */
  datatype PropertyCall = PropertyCall(entryPoint: string)

  /** A mutator call on a builder: `accesskit_node_builder_set_role`, or any other property call. */
  datatype BuilderCall = SetRoleTo(role: Role) | Property(call: PropertyCall)

  datatype NodeBuilder = NodeBuilder(role: Role, calls: seq<PropertyCall>)

  datatype Node = Node(role: Role, calls: seq<PropertyCall>)

  /** `accesskit_node_builder_new`: a builder for the role with no property set. */
  function NewBuilder(role: Role): NodeBuilder {
    NodeBuilder(role, [])
  }

  /** `accesskit_node_builder_set_role`: the role is replaced, the properties kept. */
  function SetRole(b: NodeBuilder, role: Role): (r: NodeBuilder)
    ensures r.role == role && r.calls == b.calls
  {
    b.(role := role)
  }

  /** Any other `accesskit_node_builder_*` mutator, passed through to the builder. */
  function Delegate(b: NodeBuilder, call: PropertyCall): (r: NodeBuilder)
    ensures r.role == b.role && r.calls == b.calls + [call]
  {
    b.(calls := b.calls + [call])
  }

  /** One mutator call on a builder. */
  function Apply(b: NodeBuilder, c: BuilderCall): NodeBuilder {
    match c
    case SetRoleTo(role) => SetRole(b, role)
    case Property(call) => Delegate(b, call)
  }

  /** A run of mutator calls, in order. */
  function ApplyAll(b: NodeBuilder, calls: seq<BuilderCall>): NodeBuilder
    decreases |calls|
  {
    if |calls| == 0 then b else ApplyAll(Apply(b, calls[0]), calls[1..])
  }

  /** `accesskit_node_builder_build`: the node carries what the builder held. */
  function Build(b: NodeBuilder): Node {
    Node(b.role, b.calls)
  }

  /** The role named by the last `set_role` among the calls, or `initial` when there is none. */
  function LastRole(initial: Role, calls: seq<BuilderCall>): Role
    decreases |calls|
  {
    if |calls| == 0 then initial
    else if calls[|calls| - 1].SetRoleTo? then calls[|calls| - 1].role
    else LastRole(initial, calls[..|calls| - 1])
  }

  /** The property calls among the calls, in order, with the `set_role` calls left out. */
  function PropertyCalls(calls: seq<BuilderCall>): (ps: seq<PropertyCall>)
    ensures |ps| <= |calls|
    ensures forall p :: p in ps <==> Property(p) in calls
    decreases |calls|
  {
    if |calls| == 0 then []
    else
      var front := PropertyCalls(calls[..|calls| - 1]);
      assert calls == calls[..|calls| - 1] + [calls[|calls| - 1]];
      match calls[|calls| - 1]
      case SetRoleTo(_) => front
      case Property(p) => front + [p]
  }

  /**
   * The built node has the role of the last `set_role` call (the role the
   * builder was made with when there is none) and every other property
   * call, in order.
   */
  lemma {:induction false} BuildReflectsCalls(b: NodeBuilder, calls: seq<BuilderCall>)
    ensures Build(ApplyAll(b, calls)).role == LastRole(b.role, calls)
    ensures Build(ApplyAll(b, calls)).calls == b.calls + PropertyCalls(calls)
    decreases |calls|
  {
    if |calls| > 0 {
      var last := |calls| - 1;
      ApplyAllSnoc(b, calls[..last], calls[last]);
      assert calls[..last] + [calls[last]] == calls;
      BuildReflectsCalls(b, calls[..last]);
    }
  }

  /** Applying one more call after a run is applying it to the run's result. */
  lemma {:induction false} ApplyAllSnoc(b: NodeBuilder, calls: seq<BuilderCall>, c: BuilderCall)
    ensures ApplyAll(b, calls + [c]) == Apply(ApplyAll(b, calls), c)
    decreases |calls|
  {
    if |calls| == 0 {
      assert [c][1..] == [];
    } else {
      assert (calls + [c])[1..] == calls[1..] + [c];
      ApplyAllSnoc(Apply(b, calls[0]), calls[1..], c);
    }
  }

  /**
   * A builder made for one role, given any property calls and then
   * switched to another role, builds a node of the second role that
   * keeps every one of those calls, in order.
   */
  lemma SetRoleWins(r1: Role, r2: Role, props: seq<PropertyCall>)
    ensures var calls := seq(|props|, i requires 0 <= i < |props| => Property(props[i])) + [SetRoleTo(r2)];
            Build(ApplyAll(NewBuilder(r1), calls)) == Node(r2, props)
  {
    var calls := seq(|props|, i requires 0 <= i < |props| => Property(props[i])) + [SetRoleTo(r2)];
    BuildReflectsCalls(NewBuilder(r1), calls);
    OnlyPropertyCalls(props);
    assert calls[..|calls| - 1] == seq(|props|, i requires 0 <= i < |props| => Property(props[i]));
  }

  /** Property calls alone are kept whole by `PropertyCalls`. */
  lemma {:induction false} OnlyPropertyCalls(props: seq<PropertyCall>)
    ensures PropertyCalls(seq(|props|, i requires 0 <= i < |props| => Property(props[i]))) == props
    decreases |props|
  {
    if |props| > 0 {
      var calls := seq(|props|, i requires 0 <= i < |props| => Property(props[i]));
      var last := |props| - 1;
      OnlyPropertyCalls(props[..last]);
      assert calls[..last] == seq(last, i requires 0 <= i < last => Property(props[..last][i]));
      assert props[..last] + [props[last]] == props;
    }
  }
}

=== FILE: text_values.dfy ===
/**
 * Text positions, text selections and custom actions, and the id and
 * custom-action arrays, in their Rust and C forms.
 */
module TextValues {
  import opened Wrappers
  import opened LittleEndian
  import opened FfiValues
  import opened NodeIds

  // ---------------------------------------------------------------------
  // text_position / text_selection
  // ---------------------------------------------------------------------

  datatype TextPosition = TextPosition(node: NodeId, characterIndex: nat)

  datatype TextSelection = TextSelection(anchor: TextPosition, focus: TextPosition)

  /** `accesskit_text_position`. */
  datatype CTextPosition = CTextPosition(node: CNodeId, characterIndex: nat)

  /** `accesskit_text_selection`. */
  datatype CTextSelection = CTextSelection(anchor: CTextPosition, focus: CTextPosition)

  predicate ValidCTextSelection(s: CTextSelection) {
    ValidCNodeId(s.anchor.node) && ValidCNodeId(s.focus.node)
  }

  /** `From<TextPosition> for text_position`. */
  function TextPositionToC(p: TextPosition): (c: CTextPosition)
    ensures ValidCNodeId(c.node) && NodeIdFromC(c.node) == p.node
    ensures c.characterIndex == p.characterIndex
  {
    NodeIdRoundTrip(p.node);
    CTextPosition(NodeIdToC(p.node), p.characterIndex)
  }

  /** `From<text_position> for TextPosition`. */
  function TextPositionFromC(c: CTextPosition): (p: TextPosition)
    requires ValidCNodeId(c.node)
    ensures NodeIdToC(p.node) == c.node
    ensures p.characterIndex == c.characterIndex
  {
    CNodeIdRoundTrip(c.node);
    TextPosition(NodeIdFromC(c.node), c.characterIndex)
  }

  /** `From<TextSelection> for text_selection` (and the `&TextSelection` form, which is the same). */
  function TextSelectionToC(s: TextSelection): (c: CTextSelection)
    ensures ValidCTextSelection(c)
    ensures c.anchor == TextPositionToC(s.anchor) && c.focus == TextPositionToC(s.focus)
  {
    CTextSelection(TextPositionToC(s.anchor), TextPositionToC(s.focus))
  }

  /** `From<text_selection> for TextSelection`. */
  function TextSelectionFromC(c: CTextSelection): (s: TextSelection)
    requires ValidCTextSelection(c)
    ensures s.anchor == TextPositionFromC(c.anchor) && s.focus == TextPositionFromC(c.focus)
  {
    TextSelection(TextPositionFromC(c.anchor), TextPositionFromC(c.focus))
  }

  /** A selection handed to C and read back is the same selection, anchor and focus in place. */
  lemma TextSelectionRoundTrip(s: TextSelection)
    ensures TextSelectionFromC(TextSelectionToC(s)) == s
  {
  }

  /** A valid C selection read into Rust and handed back is the same struct. */
  lemma CTextSelectionRoundTrip(c: CTextSelection)
    requires ValidCTextSelection(c)
    ensures TextSelectionToC(TextSelectionFromC(c)) == c
  {
  }

  // ---------------------------------------------------------------------
  // custom_action / custom_actions
  // ---------------------------------------------------------------------

  /** `i32`. */
  type I32 = x: int | -0x8000_0000 <= x < 0x8000_0000

  datatype CustomAction = CustomAction(id: I32, description: string)

  /** `accesskit_custom_action`: an id and an owned `char *`. */
  datatype CCustomAction = CCustomAction(id: I32, description: CharPtr)

  /** `From<&CustomAction> for custom_action`: a description holding a NUL becomes a null pointer. */
  function CustomActionToC(a: CustomAction): (c: CCustomAction)
    ensures c.id == a.id
    ensures c.description.NullChars? <==> NUL in a.description
    ensures c.description.Chars? ==> Terminated(c.description) && ReadCStr(c.description) == a.description
  {
    CCustomAction(a.id, CStringInto(a.description))
  }

  /** `From<custom_action> for CustomAction` (and the `&custom_action` form): reads the description up to its terminator. */
  function CustomActionFromC(c: CCustomAction): (a: CustomAction)
    requires Terminated(c.description)
    ensures a.id == c.id && NUL !in a.description
    ensures a.description + [NUL] <= c.description.buffer
    ensures a.description == ReadCStr(c.description)
  {
    CustomAction(c.id, ReadCStr(c.description))
  }

  /** A custom action whose description has no NUL survives the trip through C. */
  lemma CustomActionRoundTrip(a: CustomAction)
    requires NUL !in a.description
    ensures CustomActionFromC(CustomActionToC(a)) == a
  {
  }

  /** A C custom action read into Rust and handed back describes the same text. */
  lemma CCustomActionRoundTrip(c: CCustomAction)
    requires Terminated(c.description)
    ensures CustomActionToC(CustomActionFromC(c)).id == c.id
    ensures ReadCStr(CustomActionToC(CustomActionFromC(c)).description) == ReadCStr(c.description)
  {
  }

  /** `array_struct!`'s `From<&[CustomAction]>`: every element converted, in order, into a fresh array. */
  function CustomActionsToC(xs: seq<CustomAction>): (s: SliceStruct<CCustomAction>)
    ensures s.length == |xs| && RawPartsReadable(s.values, s.length)
    ensures forall i :: 0 <= i < |xs| ==> s.values.elems[i] == CustomActionToC(xs[i])
  {
    SliceStruct(|xs|, Region(seq(|xs|, i requires 0 <= i < |xs| => CustomActionToC(xs[i]))))
  }

  predicate CustomActionsReadable(s: SliceStruct<CCustomAction>) {
    && RawPartsReadable(s.values, s.length)
    && forall i :: 0 <= i < s.length ==> Terminated(s.values.elems[i].description)
  }

  /** `array_struct!`'s `From<custom_actions> for Vec<CustomAction>`: the `length` elements, each converted. */
  function CustomActionsFromC(s: SliceStruct<CCustomAction>): (xs: seq<CustomAction>)
    requires CustomActionsReadable(s)
    ensures |xs| == s.length
    ensures forall i :: 0 <= i < |xs| ==> xs[i] == CustomActionFromC(s.values.elems[i])
  {
    seq(s.length, i requires 0 <= i < s.length && CustomActionsReadable(s) => CustomActionFromC(s.values.elems[i]))
  }

  /** A list of custom actions without NUL in their descriptions comes back whole, in order. */
  lemma CustomActionsRoundTrip(xs: seq<CustomAction>)
    requires forall i :: 0 <= i < |xs| ==> NUL !in xs[i].description
    ensures CustomActionsReadable(CustomActionsToC(xs))
    ensures CustomActionsFromC(CustomActionsToC(xs)) == xs
  {
    var s := CustomActionsToC(xs);
    forall i | 0 <= i < |xs|
      ensures Terminated(s.values.elems[i].description)
      ensures CustomActionFromC(s.values.elems[i]) == xs[i]
    {
      CustomActionRoundTrip(xs[i]);
    }
  }

  // ---------------------------------------------------------------------
  // node_ids
  // ---------------------------------------------------------------------

  /** Byte order of the machine the library runs on. */
  datatype Endianness = Little | Big

  /** The bytes in the opposite order. */
  function Reverse(bs: seq<byte>): (r: seq<byte>)
    ensures |r| == |bs|
    ensures forall i :: 0 <= i < |bs| ==> r[i] == bs[|bs| - 1 - i]
  {
    seq(|bs|, i requires 0 <= i < |bs| => bs[|bs| - 1 - i])
  }

  /** Reversing twice gives the bytes back, and reversal keeps them all-zero or not. */
  lemma ReverseInvolutive(bs: seq<byte>)
    ensures Reverse(Reverse(bs)) == bs
    ensures AllZero(Reverse(bs)) <==> AllZero(bs)
  {
    if AllZero(Reverse(bs)) {
      forall i | 0 <= i < |bs| ensures bs[i] == 0 {
        assert Reverse(bs)[|bs| - 1 - i] == bs[i];
      }
    }
  }

  /** The 16 bytes a `u128` occupies in memory on a machine of the given byte order. */
  function MemoryBytes(n: nat, e: Endianness): (bs: seq<byte>)
    ensures |bs| == ID_BYTES
  {
    match e
    case Little => ToLe(n, ID_BYTES)
    case Big => Reverse(ToLe(n, ID_BYTES))
  }

  /** The `u128` whose in-memory bytes, on a machine of the given byte order, are `bs`. */
  function MemoryValue(bs: Bytes16, e: Endianness): (n: nat)
    ensures n < Pow256(ID_BYTES)
    ensures MemoryBytes(n, e) == bs
    ensures n == 0 <==> AllZero(bs)
  {
    ReverseInvolutive(bs);
    match e
    case Little =>
      ToLeFromLe(bs);
      FromLeZero(bs);
      FromLe(bs)
    case Big =>
      ToLeFromLe(Reverse(bs));
      FromLeZero(Reverse(bs));
      FromLe(Reverse(bs))
  }

  /** Reading the in-memory bytes of a `u128` back on the same machine gives the number. */
  lemma MemoryRoundTrip(n: nat, e: Endianness)
    requires n < Pow256(ID_BYTES)
    ensures MemoryValue(MemoryBytes(n, e), e) == n
  {
    FromLeToLe(n, ID_BYTES);
    ReverseInvolutive(ToLe(n, ID_BYTES));
  }

  /**
   * `From<&[NodeId]> for node_ids` as written: the C pointer is the
   * Rust slice's own pointer cast to `*const node_id`, so each element's
   * bytes are the id's in-memory representation.
   */
  function NodeIdsCastFrom(ids: seq<NodeId>, e: Endianness): (s: SliceStruct<CNodeId>)
    ensures s.length == |ids| && RawPartsReadable(s.values, s.length)
  {
    SliceStruct(|ids|, Region(seq(|ids|, i requires 0 <= i < |ids| => CNodeId(MemoryBytes(ids[i], e)))))
  }

  /** The intended `node_ids`: every element converted with `From<NodeId> for node_id`. */
  function NodeIdsFrom(ids: seq<NodeId>): (s: SliceStruct<CNodeId>)
    ensures s.length == |ids| && RawPartsReadable(s.values, s.length)
    ensures forall i :: 0 <= i < |ids| ==> ValidCNodeId(s.values.elems[i]) && NodeIdFromC(s.values.elems[i]) == ids[i]
  {
    forall i | 0 <= i < |ids| ensures NodeIdFromC(NodeIdToC(ids[i])) == ids[i] {
      NodeIdRoundTrip(ids[i]);
    }
    SliceStruct(|ids|, Region(seq(|ids|, i requires 0 <= i < |ids| => NodeIdToC(ids[i]))))
  }

  /** On a little-endian machine the cast gives exactly the converted ids. */
  lemma NodeIdsCastAgreesOnLittleEndian(ids: seq<NodeId>)
    ensures NodeIdsCastFrom(ids, Little) == NodeIdsFrom(ids)
  {
  }

  /** On a big-endian machine the cast hands C the id 1 as the bytes of 2^120. */
  lemma NodeIdsCastDisagreesOnBigEndian()
    ensures NodeIdsCastFrom([1], Big).values.elems[0] != NodeIdsFrom([1]).values.elems[0]
    ensures FromLe(NodeIdsCastFrom([1], Big).values.elems[0].bytes) == Pow256(15)
  {
    ReversedOne();
    assert NodeIdsCastFrom([1], Big).values.elems[0].bytes == Reverse(ToLe(1, ID_BYTES));
    assert NodeIdsFrom([1]).values.elems[0].bytes == ToLe(1, ID_BYTES);
  }

  /** What `From<node_ids> for Vec<NodeId>` is given: a readable array whose elements are all valid ids. */
  predicate ValidCNodeIds(s: SliceStruct<CNodeId>) {
    RawPartsReadable(s.values, s.length)
    && forall i :: 0 <= i < s.length ==> ValidCNodeId(s.values.elems[i])
  }

  /**
   * `From<node_ids> for Vec<NodeId>` as written, which the node-id list
   * setters use: the C array is adopted as a `Vec<NodeId>`, so each
   * element's 16 bytes are read as the id's in-memory representation.
   * An all-zero element would make a zero `NonZeroU128`, so none may be.
   */
  function NodeIdsCastTo(s: SliceStruct<CNodeId>, e: Endianness): (ids: seq<NodeId>)
    requires ValidCNodeIds(s)
    ensures |ids| == s.length
    ensures forall i :: 0 <= i < s.length ==> MemoryBytes(ids[i], e) == s.values.elems[i].bytes
  {
    seq(s.length, i requires 0 <= i < s.length && ValidCNodeIds(s) => MemoryValue(s.values.elems[i].bytes, e) as NodeId)
  }

  /** The intended `Vec<NodeId>`: every element converted with `From<node_id> for NodeId`. */
  function NodeIdsTo(s: SliceStruct<CNodeId>): (ids: seq<NodeId>)
    requires ValidCNodeIds(s)
    ensures |ids| == s.length
    ensures forall i :: 0 <= i < s.length ==> NodeIdToC(ids[i]) == s.values.elems[i]
  {
    forall i | 0 <= i < s.length ensures NodeIdToC(NodeIdFromC(s.values.elems[i])) == s.values.elems[i] {
      CNodeIdRoundTrip(s.values.elems[i]);
    }
    seq(s.length, i requires 0 <= i < s.length && ValidCNodeIds(s) => NodeIdFromC(s.values.elems[i]))
  }

  /** Ids exposed to C and set back from C are the same ids, in order. */
  lemma NodeIdsRoundTrip(ids: seq<NodeId>)
    ensures ValidCNodeIds(NodeIdsFrom(ids))
    ensures NodeIdsTo(NodeIdsFrom(ids)) == ids
  {
    var back := NodeIdsTo(NodeIdsFrom(ids));
    forall i | 0 <= i < |ids| ensures back[i] == ids[i] {
      NodeIdToCInjective(back[i], ids[i]);
    }
  }

  /** A valid C id array read into Rust and exposed again holds the same elements. */
  lemma CNodeIdsRoundTrip(s: SliceStruct<CNodeId>)
    requires ValidCNodeIds(s)
    ensures SliceToVec(NodeIdsFrom(NodeIdsTo(s))) == SliceToVec(s)
  {
  }

  /** On one machine, the as-written cast in each direction undoes the other. */
  lemma NodeIdsCastRoundTrip(ids: seq<NodeId>, e: Endianness)
    ensures ValidCNodeIds(NodeIdsCastFrom(ids, e))
    ensures NodeIdsCastTo(NodeIdsCastFrom(ids, e), e) == ids
  {
    var s := NodeIdsCastFrom(ids, e);
    forall i | 0 <= i < |ids| ensures ValidCNodeId(s.values.elems[i]) && MemoryValue(s.values.elems[i].bytes, e) == ids[i] {
      MemoryRoundTrip(ids[i], e);
    }
  }

  /** On a little-endian machine the adopted array reads exactly as the converted ids. */
  lemma NodeIdsCastToAgreesOnLittleEndian(s: SliceStruct<CNodeId>)
    requires ValidCNodeIds(s)
    ensures NodeIdsCastTo(s, Little) == NodeIdsTo(s)
  {
    var a, b := NodeIdsCastTo(s, Little), NodeIdsTo(s);
    forall i | 0 <= i < s.length ensures a[i] == b[i] {
      MemoryRoundTrip(b[i], Little);
    }
  }

  /** On a big-endian machine, C's `node_id` for the id 1 is set as the id 2^120. */
  lemma NodeIdsCastToDisagreesOnBigEndian()
    ensures ValidCNodeIds(NodeIdsFrom([1]))
    ensures NodeIdsCastTo(NodeIdsFrom([1]), Big) == [Pow256(15)]
    ensures NodeIdsTo(NodeIdsFrom([1])) == [1]
  {
    NodeIdsRoundTrip([1]);
    var s := NodeIdsFrom([1]);
    assert s.values.elems[0] == NodeIdToC(1);
    ReversedOne();
    assert MemoryValue(s.values.elems[0].bytes, Big) == Pow256(15);
  }

  /** The little-endian bytes of 1, reversed, are fifteen zeros and a one: the bytes of 256^15. */
  lemma ReversedOne()
    ensures Reverse(ToLe(1, ID_BYTES)) == ToLe(0, ID_BYTES - 1) + [1]
    ensures FromLe(Reverse(ToLe(1, ID_BYTES))) == Pow256(15)
  {
    var z := ToLe(0, ID_BYTES - 1);
    ZeroEncodesToZeros(ID_BYTES - 1);
    var le := ToLe(1, ID_BYTES);
    assert le == [1] + z;
    var rev := Reverse(le);
    forall i | 0 <= i < ID_BYTES ensures rev[i] == (z + [1])[i] {
      if i < ID_BYTES - 1 {
        assert rev[i] == le[ID_BYTES - 1 - i] == z[ID_BYTES - 2 - i];
      }
    }
    assert rev == z + [1];
    DigitOneAfterZeros(ID_BYTES - 1);
  }

  /** k zero digits followed by a one denote 256^k. */
  lemma {:induction false} DigitOneAfterZeros(k: nat)
    ensures FromLe(ToLe(0, k) + [1]) == Pow256(k)
  {
    if k > 0 {
      DigitOneAfterZeros(k - 1);
      assert (ToLe(0, k) + [1])[1..] == ToLe(0, k - 1) + [1];
    }
  }
}

=== FILE: tree_updates.dfy ===
/**
 * `accesskit_tree` and `accesskit_tree_update`, and their conversion into
 * the Rust `Tree` and `TreeUpdate`.
 */
module TreeUpdates {
  import opened Wrappers
  import opened FfiValues
  import opened NodeIds
  import opened Nodes
  import opened Handles

  datatype Tree = Tree(root: NodeId, rootScroller: Option<NodeId>)

  /** `accesskit_tree`. */
  datatype CTree = CTree(root: CNodeId, rootScroller: OptStruct<CNodeId>)

  predicate ValidCTree(t: CTree) {
    ValidCNodeId(t.root) && ValidOptCNodeId(t.rootScroller)
  }

  /** `accesskit_tree_new`: the given root and no root scroller. */
  function TreeNew(root: CNodeId): (t: CTree)
    ensures t.root == root
    ensures !t.rootScroller.hasValue
  {
    CTree(root, OptNodeIdToC(None))
  }

  /** `From<tree> for Tree`. */
  function TreeFromC(t: CTree): (r: Tree)
    requires ValidCTree(t)
    ensures NodeIdToC(r.root) == t.root
    ensures r.rootScroller.Some? <==> t.rootScroller.hasValue
    ensures r.rootScroller.Some? ==> NodeIdToC(r.rootScroller.value) == t.rootScroller.value
  {
    CNodeIdRoundTrip(t.root);
    Tree(NodeIdFromC(t.root), OptNodeIdFromC(t.rootScroller))
  }

  /** A tree made by `accesskit_tree_new` reaches Rust with that root and no root scroller. */
  lemma TreeNewFromC(root: CNodeId)
    requires ValidCNodeId(root)
    ensures ValidCTree(TreeNew(root))
    ensures TreeFromC(TreeNew(root)) == Tree(NodeIdFromC(root), None)
  {
  }

  /** `accesskit_opt_tree`. */
  datatype OptCTree = OptCTree(hasValue: bool, value: CTree)

  datatype TreeUpdate = TreeUpdate(nodes: seq<(NodeId, Node)>, tree: Option<Tree>, focus: Option<NodeId>)

  /**
   * `accesskit_tree_update`: `nodes_length` paired entries of `ids` and
   * `nodes`, then `tree` and `focus`. Each entry of `nodes` is a
   * `*mut accesskit_node`: null, or a node box C owns.
   */
  datatype CTreeUpdate = CTreeUpdate(
    nodesLength: nat,
    ids: Ptr<CNodeId>,
    nodes: Ptr<Address>,
    tree: OptCTree,
    focus: OptStruct<CNodeId>)

  /**
   * What the conversion as written demands of the arrays: it calls
   * `slice::from_raw_parts` on both, which needs non-null pointers even
   * when `nodes_length` is zero.
   */
  predicate ArraysReadableAsWritten(u: CTreeUpdate) {
    RawPartsReadable(u.ids, u.nodesLength) && RawPartsReadable(u.nodes, u.nodesLength)
  }

  /** The header's demand: `ids` and `nodes` each hold `nodes_length` elements; none when it is zero. */
  predicate ArraysReadable(u: CTreeUpdate) {
    u.nodesLength == 0 || ArraysReadableAsWritten(u)
  }

  /** The `nodes` entries the conversion reads. */
  function NodeSlots(u: CTreeUpdate): (slots: seq<Address>)
    requires ArraysReadable(u)
    ensures |slots| == u.nodesLength
  {
    if u.nodesLength == 0 then [] else RawParts(u.nodes, u.nodesLength)
  }

  /** The `ids` entry paired with slot i. */
  function IdAt(u: CTreeUpdate, i: nat): CNodeId
    requires ArraysReadable(u) && i < u.nodesLength
  {
    u.ids.elems[i]
  }

  /**
   * A well-formed update: readable arrays, a non-zero id wherever the
   * node is non-null (the id of a null entry is never converted), and
   * valid ids in `tree` and `focus` when present.
   */
  predicate ValidCTreeUpdate(u: CTreeUpdate) {
    && ArraysReadable(u)
    && (forall i :: 0 <= i < u.nodesLength && NodeSlots(u)[i] != NULL ==> ValidCNodeId(IdAt(u, i)))
    && (u.tree.hasValue ==> ValidCTree(u.tree.value))
    && ValidOptCNodeId(u.focus)
  }

  /**
   * What `node::to_box` on every entry needs: each non-null entry is a
   * node box C owns, and no box appears twice (the second `to_box` of
   * the same box would free it again).
   */
  predicate SlotsOwned(u: CTreeUpdate, heap: Boxes<Node>)
    requires ArraysReadable(u)
  {
    var slots := NodeSlots(u);
    && (forall i :: 0 <= i < |slots| && slots[i] != NULL ==> slots[i] in heap.live)
    && (forall i, j :: 0 <= i < j < |slots| && slots[i] != NULL ==> slots[i] != slots[j])
  }

  /** The positions of the non-null entries, ascending. */
  function KeptIndices(slots: seq<Address>): (ks: seq<nat>)
    ensures |ks| <= |slots|
    ensures forall k :: 0 <= k < |ks| ==> ks[k] < |slots| && slots[ks[k]] != NULL
    ensures forall a, b :: 0 <= a < b < |ks| ==> ks[a] < ks[b]
    ensures forall i :: 0 <= i < |slots| && slots[i] != NULL ==> i in ks
  {
    if |slots| == 0 then []
    else
      var last := |slots| - 1;
      var front := KeptIndices(slots[..last]);
      if slots[last] != NULL then front + [last] else front
  }

  /**
   * `From<tree_update> for TreeUpdate`: walks `ids` and `nodes` together;
   * for each non-null `nodes[i]` it takes the node box back from C and
   * keeps `(ids[i], node)`, in order; `tree` and `focus` are carried over
   * as they are. The node boxes handed over are consumed: C owns none of
   * them afterwards, and every other node box is left as it was.
   */
  method TreeUpdateFromC(u: CTreeUpdate, heap: Boxes<Node>) returns (r: TreeUpdate, heap': Boxes<Node>)
    requires ValidCTreeUpdate(u) && SlotsOwned(u, heap)
    ensures |r.nodes| <= u.nodesLength
    ensures PairedWith(u, heap, KeptIndices(NodeSlots(u)), r.nodes)
    ensures forall a :: a in heap'.live <==> a in heap.live && a !in NodeSlots(u)
    ensures forall a :: a in heap'.live ==> heap'.live[a] == heap.live[a]
    ensures forall i :: 0 <= i < u.nodesLength && NodeSlots(u)[i] != NULL ==> !Acceptable(heap', NodeSlots(u)[i])
    ensures r.tree.Some? <==> u.tree.hasValue
    ensures r.tree.Some? ==> NodeIdToC(r.tree.value.root) == u.tree.value.root
    ensures r.tree.Some? ==> r.tree.value.rootScroller == OptNodeIdFromC(u.tree.value.rootScroller)
    ensures r.focus.Some? <==> u.focus.hasValue
    ensures r.focus.Some? ==> NodeIdToC(r.focus.value) == u.focus.value
  {
    var nodes, h := TakeNodes(u, heap);
    ConsumedAll(u, heap, h);
    var tree := if u.tree.hasValue then Some(TreeFromC(u.tree.value)) else None;
    r := TreeUpdate(nodes, tree, OptNodeIdFromC(u.focus));
    heap' := h;
  }

  /** The walk over `ids` and `nodes`: each non-null entry's box is taken back and paired with its id. */
  method TakeNodes(u: CTreeUpdate, heap: Boxes<Node>) returns (nodes: seq<(NodeId, Node)>, h: Boxes<Node>)
    requires ValidCTreeUpdate(u) && SlotsOwned(u, heap)
    ensures PairedWith(u, heap, KeptIndices(NodeSlots(u)), nodes)
    ensures Consumed(heap, NodeSlots(u), h)
  {
    var slots := NodeSlots(u);
    nodes := [];
    h := heap;
    var i := 0;
    while i < u.nodesLength
      invariant 0 <= i <= u.nodesLength
      invariant PairedWith(u, heap, KeptIndices(slots[..i]), nodes)
      invariant Consumed(heap, slots[..i], h)
    {
      nodes, h := TakeEntry(u, heap, i, nodes, h);
      i := i + 1;
    }
    assert slots[..u.nodesLength] == slots;
  }

  /** Entry i of the walk: `node::to_box(nodes[i])`, and the pair `(ids[i], node)` kept when it yields a node. */
  method TakeEntry(u: CTreeUpdate, heap: Boxes<Node>, i: nat, nodes: seq<(NodeId, Node)>, h: Boxes<Node>)
    returns (nodes': seq<(NodeId, Node)>, h': Boxes<Node>)
    requires ValidCTreeUpdate(u) && SlotsOwned(u, heap) && i < u.nodesLength
    requires PairedWith(u, heap, KeptIndices(NodeSlots(u)[..i]), nodes) && Consumed(heap, NodeSlots(u)[..i], h)
    ensures PairedWith(u, heap, KeptIndices(NodeSlots(u)[..i + 1]), nodes')
    ensures Consumed(heap, NodeSlots(u)[..i + 1], h')
  {
    var slot := NodeSlots(u)[i];
    nodes', h' := nodes, h;
    if slot != NULL {
      NotYetConsumed(u, heap, i, h);
      var (node, rest) := ToBox(h, slot);
      nodes' := nodes + [(NodeIdFromC(IdAt(u, i)), node.value)];
      h' := rest;
    }
    WalkStep(u, heap, i, nodes, h, nodes', h');
  }

  /** `h` is `heap` with the boxes of `taken` handed back to Rust and nothing else changed. */
  predicate Consumed(heap: Boxes<Node>, taken: seq<Address>, h: Boxes<Node>) {
    h.live == heap.live - (set a | a in taken)
  }

  /** Once every entry has been walked, C owns none of the boxes taken, and the rest are as they were. */
  lemma ConsumedAll(u: CTreeUpdate, heap: Boxes<Node>, h: Boxes<Node>)
    requires ArraysReadable(u) && Consumed(heap, NodeSlots(u), h)
    ensures forall a :: a in h.live <==> a in heap.live && a !in NodeSlots(u)
    ensures forall a :: a in h.live ==> h.live[a] == heap.live[a]
    ensures forall i :: 0 <= i < u.nodesLength && NodeSlots(u)[i] != NULL ==> !Acceptable(h, NodeSlots(u)[i])
  {
    assert forall a :: a in h.live <==> a in heap.live && a !in NodeSlots(u);
  }

  /** A non-null entry's box is still C's when the walk reaches it, since no earlier entry names the same box. */
  lemma NotYetConsumed(u: CTreeUpdate, heap: Boxes<Node>, i: nat, h: Boxes<Node>)
    requires ArraysReadable(u) && SlotsOwned(u, heap) && i < u.nodesLength && NodeSlots(u)[i] != NULL
    requires Consumed(heap, NodeSlots(u)[..i], h)
    ensures NodeSlots(u)[i] in h.live
  {
    var slots := NodeSlots(u);
    forall j | 0 <= j < i ensures slots[j] != slots[i] {
      assert slots[j] != NULL ==> slots[j] != slots[i];
    }
    assert slots[i] !in slots[..i];
  }

  /**
   * One step of the walk: a non-null entry's box is taken back and its
   * node paired with the entry's id; a null entry is skipped.
   */
  lemma WalkStep(
    u: CTreeUpdate, heap: Boxes<Node>, i: nat,
    nodes: seq<(NodeId, Node)>, h: Boxes<Node>, nodes': seq<(NodeId, Node)>, h': Boxes<Node>)
    requires ValidCTreeUpdate(u) && i < u.nodesLength
    requires PairedWith(u, heap, KeptIndices(NodeSlots(u)[..i]), nodes) && Consumed(heap, NodeSlots(u)[..i], h)
    requires NodeSlots(u)[i] == NULL ==> nodes' == nodes && h' == h
    requires NodeSlots(u)[i] != NULL ==>
               && NodeSlots(u)[i] in h.live
               && nodes' == nodes + [(NodeIdFromC(IdAt(u, i)), h.live[NodeSlots(u)[i]])]
               && h' == ToBox(h, NodeSlots(u)[i]).1
    ensures PairedWith(u, heap, KeptIndices(NodeSlots(u)[..i + 1]), nodes')
    ensures Consumed(heap, NodeSlots(u)[..i + 1], h')
  {
    var slots := NodeSlots(u);
    KeptIndicesStep(slots, i);
    if slots[i] != NULL {
      PairedWithStep(u, heap, KeptIndices(slots[..i]), nodes, i, NodeIdFromC(IdAt(u, i)));
    }
    ConsumeStep(heap, slots, i, h, h');
  }

  /** One step of the walk on the boxes: `to_box` on a non-null entry takes exactly that box back; a null entry takes none. */
  lemma ConsumeStep(heap: Boxes<Node>, slots: seq<Address>, i: nat, h: Boxes<Node>, h': Boxes<Node>)
    requires i < |slots| && Consumed(heap, slots[..i], h)
    requires slots[i] == NULL ==> h' == h
    requires slots[i] != NULL ==> slots[i] in h.live && h' == ToBox(h, slots[i]).1
    ensures Consumed(heap, slots[..i + 1], h')
  {
    assert slots[..i + 1] == slots[..i] + [slots[i]];
  }

  /** nodes[k] is entry ks[k] of the update: its id converted, and the node its box held. */
  predicate PairedWith(u: CTreeUpdate, heap: Boxes<Node>, ks: seq<nat>, nodes: seq<(NodeId, Node)>)
    requires ArraysReadable(u)
  {
    && |nodes| == |ks|
    && forall k :: 0 <= k < |ks| ==>
         ks[k] < u.nodesLength
         && NodeIdToC(nodes[k].0) == IdAt(u, ks[k])
         && NodeSlots(u)[ks[k]] in heap.live
         && nodes[k].1 == heap.live[NodeSlots(u)[ks[k]]]
  }

  /** Extending the scanned prefix by one slot keeps that slot's index exactly when it is non-null. */
  lemma KeptIndicesStep(slots: seq<Address>, i: nat)
    requires i < |slots|
    ensures KeptIndices(slots[..i + 1]) == KeptIndices(slots[..i]) + (if slots[i] != NULL then [i] else [])
  {
    assert slots[..i + 1][..i] == slots[..i];
  }

  lemma PairedWithStep(u: CTreeUpdate, heap: Boxes<Node>, ks: seq<nat>, nodes: seq<(NodeId, Node)>, i: nat, id: NodeId)
    requires ValidCTreeUpdate(u) && i < u.nodesLength && NodeSlots(u)[i] != NULL && NodeSlots(u)[i] in heap.live
    requires PairedWith(u, heap, ks, nodes)
    requires id == NodeIdFromC(IdAt(u, i))
    ensures PairedWith(u, heap, ks + [i], nodes + [(id, heap.live[NodeSlots(u)[i]])])
  {
    CNodeIdRoundTrip(IdAt(u, i));
  }

  /** Each kept entry appears once: no entry is skipped, repeated or paired with another entry's id. */
  lemma KeptIndicesExact(slots: seq<Address>, i: nat)
    requires i < |slots|
    ensures slots[i] != NULL <==> i in KeptIndices(slots)
    ensures slots[i] != NULL ==> multiset(KeptIndices(slots))[i] == 1
  {
    var ks := KeptIndices(slots);
    if slots[i] != NULL {
      var k :| 0 <= k < |ks| && ks[k] == i;
      UniqueInIncreasing(ks, k);
    }
  }

  lemma {:induction false} UniqueInIncreasing(ks: seq<nat>, k: nat)
    requires k < |ks|
    requires forall a, b :: 0 <= a < b < |ks| ==> ks[a] < ks[b]
    ensures multiset(ks)[ks[k]] == 1
  {
    if |ks| == 1 {
      assert ks == [ks[0]];
    } else {
      var last := |ks| - 1;
      assert ks == ks[..last] + [ks[last]];
      if k == last {
        assert ks[k] !in ks[..last];
      } else {
        UniqueInIncreasing(ks[..last], k);
        assert ks[k] != ks[last];
      }
    }
  }

  /** The natural C way to push only a focus change: no arrays at all. */
  function FocusOnlyUpdate(focus: CNodeId): CTreeUpdate {
    CTreeUpdate(0, Null, Null, OptCTree(false, TreeNew(focus)), OptStruct(true, focus))
  }

  /**
   * As written, a focus-only update with null `ids`/`nodes` breaks the
   * precondition of `slice::from_raw_parts`; the corrected conversion
   * accepts it, keeps no node, consumes no node box and carries the
   * focus over.
   */
  lemma FocusOnlyUpdateAsWritten(focus: CNodeId, heap: Boxes<Node>)
    requires ValidCNodeId(focus)
    ensures !ArraysReadableAsWritten(FocusOnlyUpdate(focus))
    ensures ValidCTreeUpdate(FocusOnlyUpdate(focus)) && SlotsOwned(FocusOnlyUpdate(focus), heap)
    ensures KeptIndices(NodeSlots(FocusOnlyUpdate(focus))) == []
    ensures OptNodeIdFromC(FocusOnlyUpdate(focus).focus) == Some(NodeIdFromC(focus))
  {
  }
}

=== FILE: wrappers.dfy ===
/** The Rust-side `Option<T>`: a value, or nothing. */
module Wrappers {

  datatype Option<T> = None | Some(value: T)
}
